=== FILE: README.md ===
# helm-package, modelled in Dafny

A model of the logic of its own in `cloudbees-io/helm-package`, a pipeline
action that packages a Helm chart. It covers four pieces:

- **The mirroring OCI getter** (`internal/helm/getter.go`). An `oci://`
  reference is resolved into an ordered list of candidate locations. The
  candidates are fetched one at a time until one succeeds, and every failure
  is kept. The same file rewrites the SDK's provider list so that this getter
  replaces the stock OCI getter.
- **Inline values** (`internal/helm/values.go`). A getter serves the action's
  inline YAML under the URL `actioninput:values`. The merge request lists the
  chart's `values.yaml` first and the inline values second.
- **Packaging** (`internal/helm/package.go`). This covers the signing guards
  and the scoped overwrite of `values.yaml` with the merged values. A deferred
  write restores the file afterwards.
- **The command** (`cmd/cbhelmpkg/root.go`). This covers environment
  variables that stand in for flags, version defaulting, the pipeline's
  output files, and the order of steps in a run.

Modules and files:

| file | module | contents |
|---|---|---|
| `base.dfy` | `Base` | Option/Result, Go errors as `Message`, `Wrapped(context, cause)` and `Joined(errs)`, bytes, `strings.TrimPrefix`, `filepath.Join`/`Base`, UTF-8 |
| `sdk.dfy` | `Sdk` | YAML values, getter providers, the SDK's first-provider-for-a-scheme lookup, and a `Disk` class (files plus a log of reads and writes) |
| `getter.dfy` | `OciGetter` | `ociGetter.Get`, `newOCIGetterFactory`, `replaceOCIGetter` |
| `values.dfy` | `InlineValues` | `embeddedValuesGetter.Get`, `mergeChartValues` |
| `package.dfy` | `Package` | `Config`, `PackageChart`, as written and corrected |
| `root.dfy` | `Cli` | `applyEnvVarsToFlags`, `Config.Complete`, version defaulting, `writeActionOutputs`, the `RunE` body |

Some calls reach into the chart SDK, the registry-configuration library or
the operating system. Each one is a parameter of the model: a
function-typed value or a fixed outcome. These are:

- the delegate fetch, the resolver and the config loader;
- YAML marshalling and unmarshalling;
- `MergeValues`, `client.Run`, `loader.Load` and `UpdateDependencies`;
- `filepath.Abs`, `os.Stat` and `os.MkdirTemp`;
- whether each file write fails.

The file system is the `Sdk.Disk` class. Its `files` map changes in place,
and its `log` records every read and write in order. A Go `error` that can
be `nil` is an `Option<Error>`.

## Model

| member | source | states |
|---|---|---|
| Base.TrimPrefix | internal/helm/getter.go:75 | When `href` starts with `oci://`, exactly that one prefix is removed (`prefix + r == s`). Otherwise `href` is passed on unchanged. |
| Base.BaseNameAfterSeparator | cmd/cbhelmpkg/root.go:143-144 | A name without `/` that follows a directory ending in `/` is the path's last element. |
| Base.JoinPath | cmd/cbhelmpkg/root.go:128-145 | `filepath.Join` of a directory and one file name: the path starts with the directory and ends with the name, with at most one `/` inserted between them. No `.` or `..` cleaning is done (see "## Left out"). |
| Base.JoinPathBaseName | cmd/cbhelmpkg/root.go:143-144 | Joining a directory with a plain file name and taking the base name gives the file name back. |
| Base.JoinPathInjective | cmd/cbhelmpkg/root.go:128-145 | Two names joined to the same directory give equal paths only when the names are equal. |
| Base.Utf8Char | cmd/cbhelmpkg/root.go:128 | One character encodes to 1 to 4 bytes. ASCII characters encode to one byte, their own code. |
| Base.Utf8 | cmd/cbhelmpkg/root.go:128-145 | `[]byte(s)` is the UTF-8 encodings of the characters, in order. It has no ensures of its own: `Base.Utf8Ascii` states how it encodes ASCII text. |
| Base.Utf8Ascii | cmd/cbhelmpkg/root.go:128-145 | ASCII text, such as a chart name or a path, is written byte for byte: one byte per character, each its character's code. The proof builds on `Base.Utf8Char`. |
| Sdk.FirstWithScheme | internal/helm/getter.go:29-30 | Finds the first provider whose schemes contain the given scheme: that provider lists it and no earlier one does. The result is None exactly when no provider lists it. |
| Sdk.FirstWithSchemeUnique | internal/helm/getter.go:29-30 | Any position that matches that description is the one found. |
| Sdk.Disk.ReadFile | internal/helm/package.go:50 | `os.ReadFile` gives the file's bytes, or the "no such file or directory" error for a missing path. The read is logged and no file changes. |
| Sdk.Disk.WriteFile | internal/helm/package.go:65-72 | `os.WriteFile` takes effect exactly when the write does not fail. The write is logged, and the fault is returned as the error. |
| OciGetter.CandidateUris | internal/helm/getter.go:83-84 | There is one URI per resolved location, in order. Each URI is `"oci://" + location`. |
| OciGetter.FirstSuccess | internal/helm/getter.go:83-93 | Finds the first candidate whose fetch succeeds, with every earlier one failing. The result is None exactly when all fail. |
| OciGetter.Failures | internal/helm/getter.go:81-89 | When every attempt fails, there is exactly one error per attempt, and it is that attempt's own error, in attempt order. |
| OciGetter.ExhaustedError | internal/helm/getter.go:95 | The final error wraps the join of the failures under "failed to resolve OCI ref". With no candidates there is nothing to wrap, and only the message text remains. |
| OciGetter.Get | internal/helm/getter.go:74-96 | A resolver error is returned as it is, and no fetch is made. Candidates are tried in resolver order as `oci://` + location. If candidate k is the first to succeed, its result is returned after exactly k+1 calls. Otherwise every candidate is tried and the error joins all failures in order. With no candidates the result is an error after zero calls. |
| OciGetter.FirstSuccessIs | internal/helm/getter.go:83-93 | A success that follows only failures is the first success. |
| OciGetter.NewGetter | internal/helm/getter.go:40-66 | If the stock OCI getter cannot be built, that error is returned. A built getter delegates to the stock one. Which resolver it gets is stated by `OciGetter.EmptyConfigPathLoadsNothing`, `OciGetter.LoadFailureIsReturned` and `OciGetter.ConfigFileHonoured`. |
| OciGetter.EmptyConfigPathLoadsNothing | internal/helm/getter.go:47-56 | With an empty config path, the loader is never consulted, and the resolver is built from the empty configuration. |
| OciGetter.LoadFailureIsReturned | internal/helm/getter.go:49-53 | With a config path, a load failure is returned unchanged. |
| OciGetter.ConfigFileHonoured | internal/helm/getter.go:49-64 | With a config path that loads, the resolver is built from the loaded configuration, so the registry mirror configuration is honoured. A `resolve.NewResolver` error is returned as it is. Otherwise the getter pairs the stock delegate with that resolver. |
| OciGetter.ReplaceOciGetter | internal/helm/getter.go:28-38 | The in-place rewrite of the provider array equals `WithOciReplaced` of the old contents: the first `oci` provider becomes the mirroring one, and nothing else changes. |
| OciGetter.ReplaceKeepsOthers | internal/helm/getter.go:29-37 | The length is kept. Only the first `oci` provider is replaced, by one whose schemes are exactly `["oci"]`. Every other entry is kept. Without an `oci` provider nothing changes. |
| OciGetter.OciServedByMirror | internal/helm/getter.go:21-34 | After the rewrite, the scheme lookup for `oci` finds the mirroring provider at the same position. |
| OciGetter.ReplaceIdempotent | internal/helm/getter.go:28-38 | Rewriting a list that was already rewritten changes nothing. |
| OciGetter.OtherSchemesUnaffected | internal/helm/getter.go:29-34 | Lookups of other schemes are unchanged, unless the replaced provider also served that scheme. |
| InlineValues.InputValuesUrlShape | internal/helm/values.go:13-16 | The URL is exactly `actioninput:values`, so it is the scheme followed by `:values`. |
| InlineValues.EmbeddedGet | internal/helm/values.go:46-62 | Any other URL gets an empty buffer and "unsupported URL". A nil map gets an empty buffer and no error. Otherwise the buffer holds the marshalled map, or the wrapped marshal error is returned beside an empty buffer. |
| InlineValues.EmbeddedGetSucceedsIff | internal/helm/values.go:46-62 | There is no error exactly for the inline URL when the map is nil or can be marshalled. |
| InlineValues.BuildMergeRequest | internal/helm/values.go:25-36 | The value files are `[valuesFile, "actioninput:values"]`, so the inline values are applied last. The providers are the original getters followed by exactly one extra provider, for `["actioninput"]` only. |
| InlineValues.MergeChartValues | internal/helm/values.go:18-42 | An unmarshal error is wrapped "unmarshal values from action input". Otherwise the merge sees the request above, and a merge error is wrapped "load values". |
| InlineValues.UnparseableInlineSkipsMerge | internal/helm/values.go:19-23 | Unparseable inline YAML fails before any merge: the outcome does not depend on the merge. |
| InlineValues.InlineSourceServedByInlineProvider | internal/helm/values.go:25-37 | If no original getter claims `actioninput`, the second value file is served by the appended provider. Its getter returns the marshalled inline values. |
| InlineValues.EarlierClaimShadowsInlineProvider | internal/helm/values.go:25-30 | If an original getter already claims `actioninput`, it shadows the appended provider. |
| Package.SignCheck | internal/helm/package.go:29-36 | With signing on, an empty key is reported first. A non-empty key with an empty keyring reports the keyring. Otherwise there is no error. |
| Package.OverwriteValues | internal/helm/package.go:47-68 | `values.yaml` is read, then the values are merged and marshalled, then the result is written. A read, merge or marshal failure returns before any write, with the files unchanged. A failed write leaves the file as it was. On success the file holds the merged bytes and the pre-call bytes come back as the backup. |
| Package.PackageUntilRestore | internal/helm/package.go:16-84 | Failures before `client.Run` are returned in source order and change no file. `Run` sees the overwritten values, and its error or destination is passed on. The backup to restore is pending exactly when inline values were embedded. |
| Package.PackageChart | internal/helm/package.go:16-85 | The signing errors come first and touch nothing. Without inline values, `values.yaml` is neither read nor written. Once the restore succeeds, `values.yaml` holds its pre-call bytes again, on the success path and on the `Run`-failure path. A `Run` error takes precedence over a restore error. A restore error is returned when nothing else failed (this is the corrected version; see Findings). |
| Package.PackageChartAsWritten | internal/helm/package.go:47-76 | As the code stands: when `Run` succeeds, no error is returned even if the restore failed, and `values.yaml` then still holds the merged values. The file and log clauses are the same as `Package.PackageChart`'s: nothing is touched without inline values or on a signing error, and with inline values the log holds the read, the overwrite and the restore. |
| Package.RestoreFailureScenario | internal/helm/package.go:50-76 | In a concrete run where only the restore fails, the code as written reports success and leaves the merged bytes on disk. The corrected code returns the restore error. |
| Cli.ToUpperChar | cmd/cbhelmpkg/root.go:157 | Maps each lower-case ASCII letter to its own upper-case letter (32 code points lower) and keeps every other character. |
| Cli.ToUpperAscii | cmd/cbhelmpkg/root.go:157 | `strings.ToUpper` upper-cases the text character by character and keeps its length. |
| Cli.ReplaceSeparatorRuns | cmd/cbhelmpkg/root.go:154-157 | `ReplaceAllString` with `[^a-zA-Z0-6]+` never lengthens the name, and gives the empty text only for the empty name. Its full behaviour is stated by `Cli.ReplaceMatchesSqueeze`, `Cli.ReplacedCharset` and `Cli.NoAdjacentUnderscores`. |
| Cli.SkipSeparators | cmd/cbhelmpkg/root.go:154 | Drops exactly the leading run of separators: every dropped character is a separator, and what remains is empty or starts with a name character. |
| Cli.ReplacedCharset | cmd/cbhelmpkg/root.go:154-157 | After the regex replacement, every character is in `[a-zA-Z0-6]` or is `_`. |
| Cli.NoAdjacentUnderscores | cmd/cbhelmpkg/root.go:154-157 | No two underscores are adjacent: each maximal run of separators yields a single `_`. |
| Cli.CleanNameKept | cmd/cbhelmpkg/root.go:154-157 | A name made only of `[a-zA-Z0-6]` is left unchanged. |
| Cli.ReplaceMatchesSqueeze | cmd/cbhelmpkg/root.go:154-157 | The replacement equals a second, independent definition: turn every separator into `_`, then squeeze repeated underscores. |
| Cli.EnvVarName | cmd/cbhelmpkg/root.go:157 | The variable for a flag starts with the prefix. It is longer than the prefix exactly when the flag name is non-empty, and it adds at most one character per character of the flag name. `Cli.EnvVarNameShape` states which characters follow the prefix. |
| Cli.EnvVarNameShape | cmd/cbhelmpkg/root.go:157 | Every derived name starts with the prefix. After the prefix it uses only `A-Z`, `0-6` and `_`. |
| Cli.DashJoinedWords | cmd/cbhelmpkg/root.go:154-157 | Two clean words joined by a dash come out joined by an underscore. |
| Cli.SeparatorJoinedWords | cmd/cbhelmpkg/root.go:154-157 | Two clean words joined by any single separator character come out joined by one underscore. |
| Cli.DashedFlagVariable | cmd/cbhelmpkg/root.go:157 | A dashed flag such as `embed-values` is bound to the prefix followed by the upper-cased underscore form (`CBHELMPKG_EMBED_VALUES`). |
| Cli.ReplaceKeepsCleanPrefix | cmd/cbhelmpkg/root.go:154-157 | A clean word at the front of a name is kept at the front. |
| Cli.HighDigitsSeparate | cmd/cbhelmpkg/root.go:154-157 | The digits 7-9 are separators: a clean word followed by one of them, such as the flag `key7`, is bound to the prefix, the upper-cased word and an underscore (`CBHELMPKG_KEY_`). |
| Cli.EntryKey | cmd/cbhelmpkg/root.go:174-175 | The key of an environment entry is the longest prefix without `=`. It is followed by `=`, unless it is the whole entry. |
| Cli.Getenv | cmd/cbhelmpkg/root.go:160 | A non-empty value comes from an entry whose key is the variable's name. |
| Cli.EntryKeyIs | cmd/cbhelmpkg/root.go:174-175 | For a name without `=`, an entry starts with `name=` exactly when its key is that name. |
| Cli.GetenvFirstEntry | cmd/cbhelmpkg/root.go:160 | A non-empty value is exactly the text after `name=` in the first entry that starts with `name=`. With no such entry the value is empty. |
| Cli.AnnotatedFlagsAt | cmd/cbhelmpkg/root.go:156-161 | After the visit, every flag keeps its place. Its help text ends with the variable name in parentheses, and a non-empty value becomes the shown default. |
| Cli.EnvAssignmentsSound | cmd/cbhelmpkg/root.go:157-162 | Only non-empty values are applied. Each value is applied to the flag its variable was derived from, and it is the value the environment holds. |
| Cli.EnvAssignmentsComplete | cmd/cbhelmpkg/root.go:160-162 | Every flag whose variable holds a non-empty value receives it. |
| Cli.FirstSetError | cmd/cbhelmpkg/root.go:162-165 | The visit reports no error exactly when every `Set` call succeeds. |
| Cli.FirstSetErrorIsFirst | cmd/cbhelmpkg/root.go:162-165 | The error kept is the first failing `Set`, wrapped with its variable's name. |
| Cli.FirstSetErrorKept | cmd/cbhelmpkg/root.go:163 | Once an error is kept, later failures never overwrite it. |
| Cli.FirstUnsupported | cmd/cbhelmpkg/root.go:172-180 | Finds the first prefixed entry whose key is not a derived name, with every earlier prefixed entry supported. The result is None exactly when every prefixed entry is supported. |
| Cli.FirstUnsupportedIs | cmd/cbhelmpkg/root.go:172-180 | Any entry that matches that description is the one found. |
| Cli.VisitFlag | cmd/cbhelmpkg/root.go:156-166 | The visitor derives the variable and annotates the flag. It calls `Set` exactly when the variable's value is non-empty. |
| Cli.BindEnvToFlags | cmd/cbhelmpkg/root.go:155-167 | The visit loop gives the annotated flags and the set of derived names. It records the `Set` calls in flag order, and its error is the first failure. |
| Cli.CheckEnvironment | cmd/cbhelmpkg/root.go:172-181 | The scan succeeds exactly when every entry with the prefix has a derived name as its key. Otherwise the error names the first offending key. |
| Cli.ApplyEnvVarsToFlags | cmd/cbhelmpkg/root.go:153-182 | A failed `Set` is returned before the environment is scanned. Otherwise the result is the scan's. |
| Cli.UnsupportedVariableRefused | cmd/cbhelmpkg/root.go:172-178 | Any prefixed entry whose key is not a flag's variable makes the environment scan fail with "unsupported environment variable". The run returns this error only when no `Set` call failed first (see `Cli.ApplyEnvVarsToFlags`). |
| Cli.DefaultVersions | cmd/cbhelmpkg/root.go:61-75 | Explicit versions are never overwritten. A given `Version` doubles as `AppVersion`. Otherwise the chart's version is used, and the chart's appVersion (or, when that is empty, its version) becomes `AppVersion`. No other field changes. With a versioned chart, both end up set. |
| Cli.RequiredEnvCheck | cmd/cbhelmpkg/root.go:35-41 | The run fails exactly when `CLOUDBEES_OUTPUTS` or `RUNNER_TEMP` is empty, with the fixed message. |
| Cli.ChartArchivePath | cmd/cbhelmpkg/root.go:143-144 | The reported archive path starts with the destination directory. |
| Cli.ChartArchiveFileName | cmd/cbhelmpkg/root.go:143-144 | The reported archive path starts with the destination directory, and its base name is `<name>-<version>.tgz`. |
| Cli.WriteOutputs | cmd/cbhelmpkg/root.go:127-151 | No error exactly when every write succeeds. At most one write is attempted per output. |
| Cli.FirstFailedWriteStops | cmd/cbhelmpkg/root.go:128-149 | When the write to output m is the first to fail, its fault is the error returned. Only the files written before it can have changed. |
| Cli.FirstFailedWriteLogged | cmd/cbhelmpkg/root.go:128-149 | When the write to output m is the first to fail, the log gains exactly the writes of outputs up to and including m, in order, and no later write is attempted. |
| Cli.AllOutputsWritten | cmd/cbhelmpkg/root.go:127-151 | When every write succeeds and the paths are distinct, each output file holds its text, and every other file is unchanged. The old log is kept, followed by exactly one write per output, in order, with that output's path and bytes. |
| Cli.AllWritesLogged | cmd/cbhelmpkg/root.go:128-149 | When every write succeeds, the old log is kept and is followed by exactly one write per output, in order, each with that output's path and bytes. |
| Cli.ActionOutputPathsDistinct | cmd/cbhelmpkg/root.go:128-145 | The four output files `name`, `version`, `directory` and `chart` have different paths. |
| Cli.WriteActionOutputs | cmd/cbhelmpkg/root.go:127-151 | The four writes change the disk and its log exactly as `WriteOutputs` describes, and return its error. When no write fails, each of `name`, `version`, `directory` and `chart` holds its text, and `chart` holds the path of `<name>-<version>.tgz` in the destination. |
| Cli.Complete | internal/helm/config.go:40-50 | A registry-client error is returned wrapped "new registry client". Otherwise the getters are the stock providers with the first `oci` provider replaced by the mirroring getter. |
| Cli.PackageStep | cmd/cbhelmpkg/root.go:82-85 | The packaging step, as written or corrected: a failure before `client.Run` is reported the same way by both and leaves the files unchanged. |
| Cli.RunAction | cmd/cbhelmpkg/root.go:29-95 | The caller picks the as-written or the corrected packaging step. A registry-client error is returned wrapped. A missing `CLOUDBEES_OUTPUTS` or `RUNNER_TEMP` fails before the disk is touched. On success, each output file holds its text, and the `chart` file names `<name>-<version>.tgz` in the destination, using the defaulted version. |

## Left out

- Path normalisation: `filepath.Clean` (root.go:44, 51, 54) and the cleaning that `filepath.Join` does are not modelled. `JoinPath` only inserts one `/` when needed.
- `filepath.Abs`, `os.Stat` and `os.MkdirTemp` are given as outcomes. Temporary directory names are not modelled.
- A failed `os.WriteFile` is modelled as leaving the file unchanged. Partial writes and file permissions are not modelled.
- The registry-configuration resolver and `registries.LoadConfig` are in an external library and are abstract functions. Their mirror-matching rules are not modelled.
- The SDK's `MergeValues` deep merge, `loader.Load`, `action.Package.Run`, `downloader.Manager.Update`, PGP signing and the tar/gzip archive are outcomes or functions whose behaviour is not modelled. The SDK's own read of `values.yaml` during the merge is part of that merge.
- YAML marshalling and unmarshalling are uninterpreted functions. No round trip is claimed.
- Getter options (`getter.Option`) are passed through in the source and are not modelled.
- The scheme lookup of the SDK (`Providers.ByScheme`) is not part of this model. `Sdk.FirstWithScheme` assumes that it returns the first provider listing the scheme.
- InlineValues.EmbeddedGet: the error branch of `bytes.Buffer.Write` (values.go:54-57) is left out, because writing to a `bytes.Buffer` never fails. The `%q` quoting of the URL is shown as plain double quotes, without escaping.
- `append(getters, …)` (values.go:25) may reuse the caller's backing array. The model builds a new sequence, so that aliasing is not captured.
- The cobra command, flag registration, `cmd.Usage()` output, the success message printed to `out`, `main.go`, `dependencies.go` and `defaultKeyring` in `config.go` are I/O and entry-point plumbing.
- `Flag.Value.Set` is a function giving each flag's parse outcome. The flag's value after `Set` is not modelled.
- pflag's `VisitAll` visits flags sorted by name. The model takes `flags` as already in that order and does not model the sorting, so the "first" `Set` error of `Cli.FirstSetErrorIsFirst` is first by flag name.
- Cli.Getenv: the environment is the list `os.Environ` returns. The first entry with the key wins, as `Cli.GetenvFirstEntry` states.
- Cli.ToUpperAscii: only ASCII letters change case. This is exact on derived names, which hold only `[a-zA-Z0-6_]` after the replacement.
- Cli.RunAction: `Execute` binds the environment before the command runs, so `RunAction` starts from the bound configuration. The registry client itself is not modelled, only whether building it fails.
- Cli.RunAction: the contract does not state what happens after a failed restore. With the code as written (`asWritten`), a failed restore is not an error, so the run goes on to write the four outputs and succeeds. With the corrected packaging, the run stops with "helm package" and writes no output.
- Package.PackageChart: `action.Package.Run` writes the `<name>-<version>.tgz` archive, and a `.prov` file when signing. These writes are not on the `Disk`, because `run` is given the files but cannot change them. So "every file is as it was" in the contract covers only the files the packaging code itself reads and writes, which is `values.yaml`.
- The Go integer and byte widths do not matter here. `Byte` is the range 0-255.

## Findings

| source | as written | input that shows it | evidently intended | confidence | as-written member | corrected member |
|---|---|---|---|---|---|---|
| internal/helm/package.go:50,70-76 | `valuesBackup, err := os.ReadFile(valuesFile)` inside the `if` block declares a new `err` that shadows the named result. The deferred restore tests and assigns that inner `err`, so a failed restore of `values.yaml` is never returned. | Inline values are set, every step before `client.Run` succeeds, `Run` succeeds, and the restore write fails (for example, "no space left on device"). `PackageChart` returns the destination with a nil error, and `values.yaml` still holds the merged values. | The restore error is returned when nothing else failed, as the check `err == nil` in the deferred function intends. | high, not executed | Package.PackageChartAsWritten (shown by Package.RestoreFailureScenario) | Package.PackageChart |

=== FILE: base.dfy ===
/** Values shared by every part of the model: Go's error values, results,
    bytes, and the few string operations of Go's standard library the code
    relies on (strings.HasPrefix, strings.TrimPrefix, filepath.Join). */
module Base {

  datatype Option<+T> = None | Some(value: T)

  /** A Go `(value, error)` pair where exactly one side is meaningful. */
  datatype Result<+T> = Ok(value: T) | Err(error: Error)

  /** Go error values, by how they were built:
      errors.New / errors.Errorf without %w give a Message,
      fmt.Errorf("context: %w", e) and errors.Wrap(e, "context") give a Wrapped,
      errors.Join of one or more non-nil errors gives a Joined. */
  datatype Error =
    | Message(text: string)
    | Wrapped(context: string, cause: Error)
    | Joined(errs: seq<Error>)

  newtype Byte = b: int | 0 <= b < 256

  type Bytes = seq<Byte>

  predicate HasPrefix(s: string, prefix: string) {
    |prefix| <= |s| && s[..|prefix|] == prefix
  }

  /** strings.TrimPrefix: drops one leading copy of `prefix`, if there is one. */
  function TrimPrefix(s: string, prefix: string): (r: string)
    ensures HasPrefix(s, prefix) ==> prefix + r == s
    ensures !HasPrefix(s, prefix) ==> r == s
  {
    if HasPrefix(s, prefix) then
      assert s == s[..|prefix|] + s[|prefix|..];
      s[|prefix|..]
    else s
  }

  /** filepath.Join of a directory and a single file name, without the
      lexical cleaning of "." and ".." segments. */
  function JoinPath(dir: string, name: string): (r: string)
    // the directory comes first and the name last, with at most one `/` between
    ensures HasPrefix(r, dir)
    ensures |dir| + |name| <= |r| <= |dir| + 1 + |name|
    ensures r[|r| - |name|..] == name
  {
    if dir == "" then name
    else if dir[|dir| - 1] == '/' then dir + name
    else dir + "/" + name
  }

  /** The last slash-separated segment of a path (filepath.Base without cleaning). */
  function BaseName(path: string): (r: string)
    ensures '/' !in r
    ensures |r| <= |path| && path[|path| - |r|..] == r
  {
    if path == [] then []
    else if path[|path| - 1] == '/' then []
    else
      var init := path[..|path| - 1];
      var b := BaseName(init);
      assert path[|path| - |b| - 1..] == init[|init| - |b|..] + [path[|path| - 1]];
      b + [path[|path| - 1]]
  }

  /** A name appended after a separator (or to nothing) is the last segment. */
  lemma {:induction false} BaseNameAfterSeparator(dir: string, name: string)
    requires dir == [] || dir[|dir| - 1] == '/'
    requires '/' !in name
    ensures BaseName(dir + name) == name
    decreases |name|
  {
    if name == [] {
      assert dir + name == dir;
    } else {
      var init := name[..|name| - 1];
      assert dir + name == (dir + init) + [name[|name| - 1]];
      assert (dir + name)[..|dir + name| - 1] == dir + init;
      BaseNameAfterSeparator(dir, init);
    }
  }

  /** Joining a directory with a plain file name and taking the base name
      gives the file name back. */
  lemma JoinPathBaseName(dir: string, name: string)
    requires name != [] && '/' !in name
    ensures BaseName(JoinPath(dir, name)) == name
  {
    if dir == "" {
      BaseNameAfterSeparator("", name);
    } else if dir[|dir| - 1] == '/' {
      BaseNameAfterSeparator(dir, name);
    } else {
      assert dir + "/" + name == (dir + "/") + name;
      BaseNameAfterSeparator(dir + "/", name);
    }
  }

  /** Two names joined to the same directory give the same path only when
      the names are equal. */
  lemma JoinPathInjective(dir: string, a: string, b: string)
    requires JoinPath(dir, a) == JoinPath(dir, b)
    ensures a == b
  {
    var p := if dir == "" then "" else if dir[|dir| - 1] == '/' then dir else dir + "/";
    assert JoinPath(dir, a) == p + a && JoinPath(dir, b) == p + b;
    assert a == (p + a)[|p|..] && b == (p + b)[|p|..];
  }

  /** The UTF-8 encoding of one character, which is how Go turns a string
      into the bytes it writes. */
  function Utf8Char(c: char): (b: Bytes)
    ensures 1 <= |b| <= 4
    ensures (c as int < 0x80) <==> |b| == 1
    ensures c as int < 0x80 ==> b[0] as int == c as int
  {
    var n := c as int;
    if n < 0x80 then [n as Byte]
    else if n < 0x800 then [(0xC0 + n / 0x40) as Byte, (0x80 + n % 0x40) as Byte]
    else if n < 0x1_0000 then
      [(0xE0 + n / 0x1000) as Byte, (0x80 + (n / 0x40) % 0x40) as Byte, (0x80 + n % 0x40) as Byte]
    else
      [(0xF0 + n / 0x4_0000) as Byte, (0x80 + (n / 0x1000) % 0x40) as Byte,
       (0x80 + (n / 0x40) % 0x40) as Byte, (0x80 + n % 0x40) as Byte]
  }

  /** `[]byte(s)`: the UTF-8 bytes of a string. */
  function Utf8(s: string): Bytes
  {
    if s == [] then [] else Utf8Char(s[0]) + Utf8(s[1..])
  }

  /** ASCII text is written byte for byte, each byte its character's code. */
  lemma {:induction false} Utf8Ascii(s: string)
    requires forall i :: 0 <= i < |s| ==> s[i] as int < 0x80
    ensures |Utf8(s)| == |s|
    ensures forall i :: 0 <= i < |s| ==> Utf8(s)[i] as int == s[i] as int
  {
    if s != [] {
      Utf8Ascii(s[1..]);
      assert Utf8(s) == Utf8Char(s[0]) + Utf8(s[1..]);
    }
  }
}

=== FILE: getter.dfy ===
/** The OCI getter that honours the registry mirror configuration
    (internal/helm/getter.go): a fetch of an `oci://` reference asks the
    resolver for an ordered list of candidate locations and tries them one
    at a time, keeping every failure; and the rewrite of the SDK's provider
    list that installs this getter in place of the stock OCI one. */
module OciGetter {
  import opened Base
  import opened Sdk

  /** registry.OCIScheme */
  const OciScheme: string := "oci"
  const OciPrefix: string := OciScheme + "://"
  const ResolveFailed: string := "failed to resolve OCI ref"

  /** The delegate getter's Get, as the outcome it gives each URI. */
  type Fetch = string -> Result<Bytes>

  /** The resolver built from the registry configuration: the candidate
      locations for a reference, most preferred first. */
  type Resolve = string -> Result<seq<string>>

  /** ociGetter: the stock OCI getter it delegates to and the resolver. */
  datatype Getter = Getter(delegate: Fetch, refRewriter: Resolve)

  /** The URI handed to the delegate for one candidate location. */
  function CandidateUri(location: string): string {
    OciPrefix + location
  }

  function CandidateUris(locations: seq<string>): (uris: seq<string>)
    ensures |uris| == |locations|
    ensures forall i :: 0 <= i < |locations| ==> uris[i] == CandidateUri(locations[i])
  {
    seq(|locations|, i requires 0 <= i < |locations| => CandidateUri(locations[i]))
  }

  /** What the resolver makes of `href` once the scheme is stripped. */
  function Resolved(g: Getter, href: string): Result<seq<string>> {
    g.refRewriter(TrimPrefix(href, OciPrefix))
  }

  /** The position of the first URI the delegate fetches successfully. */
  function FirstSuccess(fetch: Fetch, uris: seq<string>): (k: Option<nat>)
    ensures k.Some? ==> k.value < |uris| && fetch(uris[k.value]).Ok?
    ensures k.Some? ==> forall j :: 0 <= j < k.value ==> fetch(uris[j]).Err?
    ensures k.None? <==> forall j :: 0 <= j < |uris| ==> fetch(uris[j]).Err?
  {
    if uris == [] then None
    else if fetch(uris[0]).Ok? then Some(0)
    else match FirstSuccess(fetch, uris[1..])
      case None => None
      case Some(k) => Some(k + 1)
  }

  /** The errors of the failed fetches among `uris`, in attempt order. */
  function Failures(fetch: Fetch, uris: seq<string>): (errs: seq<Error>)
    ensures |errs| <= |uris|
    ensures (forall i :: 0 <= i < |uris| ==> fetch(uris[i]).Err?) ==>
      |errs| == |uris| && forall i :: 0 <= i < |uris| ==> errs[i] == fetch(uris[i]).error
  {
    if uris == [] then []
    else
      var last := uris[|uris| - 1];
      Failures(fetch, uris[..|uris| - 1]) + if fetch(last).Err? then [fetch(last).error] else []
  }

  /** The error returned once every candidate has failed: the joined
      failures wrapped with context. fmt.Errorf with %w of errors.Join() of
      nothing (an empty candidate list) formats the nil operand as
      "%!w(<nil>)" and wraps no error. */
  function ExhaustedError(errs: seq<Error>): (e: Error)
    ensures errs != [] ==> e == Wrapped(ResolveFailed, Joined(errs))
    ensures errs == [] ==> e.Message? && HasPrefix(e.text, ResolveFailed)
  {
    if errs == [] then Message(ResolveFailed + ": %!w(<nil>)")
    else Wrapped(ResolveFailed, Joined(errs))
  }

  /** ociGetter.Get. Besides the result it returns `calls`, the URIs handed
      to the delegate, in order. */
  method Get(g: Getter, href: string) returns (r: Result<Bytes>, calls: seq<string>)
    // a resolver failure is returned as it is, and nothing is fetched
    ensures Resolved(g, href).Err? ==> r == Err(Resolved(g, href).error) && calls == []
    // candidates are tried in resolver order, each as "oci://" + location
    ensures Resolved(g, href).Ok? ==> calls <= CandidateUris(Resolved(g, href).value)
    // every attempt but the last one failed
    ensures forall i :: 0 <= i < |calls| - 1 ==> g.delegate(calls[i]).Err?
    // a success is the result of the last (and first successful) attempt
    ensures r.Ok? ==> calls != [] && r == g.delegate(calls[|calls| - 1])
    // success exactly when some candidate succeeds; then no later one is tried
    ensures Resolved(g, href).Ok? ==>
      var uris := CandidateUris(Resolved(g, href).value);
      match FirstSuccess(g.delegate, uris)
      case Some(k) => r.Ok? && |calls| == k + 1
      case None => r.Err? && calls == uris
    // on total failure every candidate's error is kept, in attempt order
    ensures Resolved(g, href).Ok? && r.Err? ==>
      r.error == ExhaustedError(Failures(g.delegate, calls)) &&
      |Failures(g.delegate, calls)| == |calls|
  {
    var ref := TrimPrefix(href, OciPrefix);
    var resolved := g.refRewriter(ref);
    if resolved.Err? {
      return Err(resolved.error), [];
    }
    var locations := resolved.value;
    ghost var uris := CandidateUris(locations);
    var errs: seq<Error> := [];
    calls := [];
    var i := 0;
    while i < |locations|
      invariant 0 <= i <= |locations|
      invariant calls == uris[..i]
      invariant forall j :: 0 <= j < i ==> g.delegate(calls[j]).Err?
      invariant errs == Failures(g.delegate, calls)
    {
      var uri := CandidateUri(locations[i]);
      var result := g.delegate(uri);
      assert calls + [uri] == uris[..i + 1];
      calls := calls + [uri];
      if result.Err? {
        errs := errs + [result.error];
        assert calls[..|calls| - 1] == calls[..i];
        i := i + 1;
        continue;
      }
      FirstSuccessIs(g.delegate, uris, i);
      return result, calls;
    }
    assert calls == uris;
    r := Err(ExhaustedError(errs));
  }

  /** A position whose fetch succeeds after only failures is the first success. */
  lemma FirstSuccessIs(fetch: Fetch, uris: seq<string>, k: nat)
    requires k < |uris| && fetch(uris[k]).Ok?
    requires forall j :: 0 <= j < k ==> fetch(uris[j]).Err?
    ensures FirstSuccess(fetch, uris) == Some(k)
  {
  }

  /** newOCIGetterFactory's constructor, with the stock OCI getter's
      construction, registries.LoadConfig and resolve.NewResolver given as
      their outcomes. */
  function NewGetter<C>(registryConfigFile: string, newDelegate: Result<Fetch>, emptyConfig: C,
                        loadConfig: string -> Result<C>, newResolver: C -> Result<Resolve>): (r: Result<Getter>)
    ensures newDelegate.Err? ==> r == Err(newDelegate.error)
    ensures r.Ok? ==> newDelegate.Ok? && r.value.delegate == newDelegate.value
  {
    if newDelegate.Err? then Err(newDelegate.error)
    else
      var config := if registryConfigFile == "" then Ok(emptyConfig) else loadConfig(registryConfigFile);
      if config.Err? then Err(config.error)
      else match newResolver(config.value)
        case Err(e) => Err(e)
        case Ok(resolve) => Ok(Getter(newDelegate.value, resolve))
  }

  /** With no registry configuration file, the resolver is built from the
      empty configuration and no file is loaded: the outcome is the same
      whatever the loader would have done. */
  lemma EmptyConfigPathLoadsNothing<C>(newDelegate: Result<Fetch>, emptyConfig: C,
                                       load1: string -> Result<C>, load2: string -> Result<C>,
                                       newResolver: C -> Result<Resolve>)
    requires newDelegate.Ok?
    ensures NewGetter("", newDelegate, emptyConfig, load1, newResolver)
         == NewGetter("", newDelegate, emptyConfig, load2, newResolver)
    ensures NewGetter("", newDelegate, emptyConfig, load1, newResolver).Ok?
        <==> newResolver(emptyConfig).Ok?
    ensures newResolver(emptyConfig).Ok? ==>
      NewGetter("", newDelegate, emptyConfig, load1, newResolver).value.refRewriter == newResolver(emptyConfig).value
  {
  }

  /** With a configuration file, a load failure is returned as it is. */
  lemma LoadFailureIsReturned<C>(registryConfigFile: string, newDelegate: Result<Fetch>, emptyConfig: C,
                                 loadConfig: string -> Result<C>, newResolver: C -> Result<Resolve>)
    requires newDelegate.Ok? && registryConfigFile != ""
    requires loadConfig(registryConfigFile).Err?
    ensures NewGetter(registryConfigFile, newDelegate, emptyConfig, loadConfig, newResolver)
         == Err(loadConfig(registryConfigFile).error)
  {
  }

  /** With a configuration file that loads, the resolver is built from the
      loaded configuration, and an error building it is returned as it is. */
  lemma ConfigFileHonoured<C>(registryConfigFile: string, newDelegate: Result<Fetch>, emptyConfig: C,
                              loadConfig: string -> Result<C>, newResolver: C -> Result<Resolve>)
    requires newDelegate.Ok? && registryConfigFile != ""
    requires loadConfig(registryConfigFile).Ok?
    ensures var c := loadConfig(registryConfigFile).value;
      newResolver(c).Err? ==>
        NewGetter(registryConfigFile, newDelegate, emptyConfig, loadConfig, newResolver) == Err(newResolver(c).error)
    ensures var c := loadConfig(registryConfigFile).value;
      newResolver(c).Ok? ==>
        NewGetter(registryConfigFile, newDelegate, emptyConfig, loadConfig, newResolver)
          == Ok(Getter(newDelegate.value, newResolver(c).value))
  {
  }

  /** The provider the rewrite installs: it handles `oci` only. */
  function MirroringProvider(registryConfigFile: string): Provider {
    Provider([OciScheme], MirroringOci(registryConfigFile))
  }

  /** The provider list after replaceOCIGetter. */
  function WithOciReplaced(providers: seq<Provider>, registryConfigFile: string): seq<Provider> {
    match FirstWithScheme(providers, OciScheme)
    case None => providers
    case Some(k) => providers[k := MirroringProvider(registryConfigFile)]
  }

  /** replaceOCIGetter: overwrites, in place, the first provider that
      handles `oci`, and nothing else. */
  method ReplaceOciGetter(providers: array<Provider>, registryConfigFile: string)
    modifies providers
    ensures providers[..] == WithOciReplaced(old(providers[..]), registryConfigFile)
  {
    var i := 0;
    while i < providers.Length
      invariant 0 <= i <= providers.Length
      invariant providers[..] == old(providers[..])
      invariant forall j :: 0 <= j < i ==> OciScheme !in providers[j].schemes
    {
      if OciScheme in providers[i].schemes {
        FirstWithSchemeUnique(providers[..], OciScheme, i);
        providers[i] := MirroringProvider(registryConfigFile);
        return;
      }
      i := i + 1;
    }
  }

  /** replaceOCIGetter keeps the length, swaps the first `oci` provider for
      one whose schemes are exactly ["oci"], keeps every other entry, and
      changes nothing when no provider handles `oci`. */
  lemma ReplaceKeepsOthers(providers: seq<Provider>, registryConfigFile: string, j: nat)
    requires j < |providers|
    ensures |WithOciReplaced(providers, registryConfigFile)| == |providers|
    ensures WithOciReplaced(providers, registryConfigFile)[j] ==
      if FirstWithScheme(providers, OciScheme) == Some(j) then MirroringProvider(registryConfigFile) else providers[j]
    ensures (forall i :: 0 <= i < |providers| ==> OciScheme !in providers[i].schemes) ==>
      WithOciReplaced(providers, registryConfigFile) == providers
  {
  }

  /** After the rewrite, the SDK hands out the mirroring getter for every
      `oci://` URL, provided some provider handled `oci` before. */
  lemma OciServedByMirror(providers: seq<Provider>, registryConfigFile: string)
    requires exists i :: 0 <= i < |providers| && OciScheme in providers[i].schemes
    ensures var r := WithOciReplaced(providers, registryConfigFile);
      FirstWithScheme(r, OciScheme) == FirstWithScheme(providers, OciScheme) &&
      r[FirstWithScheme(r, OciScheme).value] == MirroringProvider(registryConfigFile)
  {
    var k := FirstWithScheme(providers, OciScheme).value;
    var r := WithOciReplaced(providers, registryConfigFile);
    FirstWithSchemeUnique(r, OciScheme, k);
  }

  /** Rewriting an already rewritten list changes nothing. */
  lemma ReplaceIdempotent(providers: seq<Provider>, registryConfigFile: string)
    ensures WithOciReplaced(WithOciReplaced(providers, registryConfigFile), registryConfigFile)
         == WithOciReplaced(providers, registryConfigFile)
  {
    if FirstWithScheme(providers, OciScheme).Some? {
      OciServedByMirror(providers, registryConfigFile);
    }
  }

  /** Lookups of any other scheme are unaffected, unless the replaced
      provider also handled that scheme. */
  lemma OtherSchemesUnaffected(providers: seq<Provider>, registryConfigFile: string, scheme: string)
    requires scheme != OciScheme
    requires FirstWithScheme(providers, OciScheme).Some? ==>
      scheme !in providers[FirstWithScheme(providers, OciScheme).value].schemes
    ensures FirstWithScheme(WithOciReplaced(providers, registryConfigFile), scheme)
         == FirstWithScheme(providers, scheme)
  {
    var r := WithOciReplaced(providers, registryConfigFile);
    assert forall j :: 0 <= j < |providers| ==> (scheme in r[j].schemes <==> scheme in providers[j].schemes);
    match FirstWithScheme(providers, scheme)
    case None =>
    case Some(m) => FirstWithSchemeUnique(r, scheme, m);
  }
}

=== FILE: package.dfy ===
/** Packaging a chart (internal/helm/package.go): the signing guards, and
    the scoped overwrite of the chart's values.yaml with the merged values,
    restored by a deferred write on every exit path after the overwrite.
    The configuration record comes from internal/helm/config.go. */
module Package {
  import opened Base
  import opened Sdk
  import opened InlineValues

  /** The action's configuration (helm.Config), without the SDK settings
      and the registry client, which the modelled code only passes on. */
  datatype Config = Config(
    chartPath: string,
    version: string,
    appVersion: string,
    embedValues: string,
    verify: bool,
    sign: bool,
    signKey: string,
    keyring: string,
    passphraseFile: string,
    destination: string,
    getters: seq<Provider>,
    registryConfig: string)

  /** The outcomes of the calls PackageChart makes into the operating system
      and the SDK, whose behaviour is not modelled. */
  datatype PackageSdk = PackageSdk(
    absPath: Result<string>,                            // filepath.Abs(cfg.ChartPath)
    statErr: Option<Error>,                             // os.Stat(cfg.ChartPath)
    unmarshal: string -> Result<Option<Values>>,        // yaml.Unmarshal of the inline values
    mergeValues: MergeRequest -> Result<Values>,        // values.Options.MergeValues
    marshal: Values -> Result<Bytes>,                   // yaml.Marshal of the merged values
    writeFault: Option<Error>,                          // writing the merged values.yaml
    run: (string, map<string, Bytes>) -> Result<string>, // client.Run on the chart as the disk then holds it
    restoreFault: Option<Error>)                        // the deferred write of the backup

  const SignKeyRequired: string := "sign-key is required for signing a package"
  const KeyringRequired: string := "keyring is required for signing a package"

  /** The signing guards: a key is checked for before a keyring. */
  function SignCheck(cfg: Config): (r: Option<Error>)
    ensures r.Some? <==> cfg.sign && (cfg.signKey == "" || cfg.keyring == "")
    ensures cfg.sign && cfg.signKey == "" ==> r == Some(Message(SignKeyRequired))
    ensures cfg.sign && cfg.signKey != "" && cfg.keyring == "" ==> r == Some(Message(KeyringRequired))
  {
    if cfg.sign && cfg.signKey == "" then Some(Message(SignKeyRequired))
    else if cfg.sign && cfg.keyring == "" then Some(Message(KeyringRequired))
    else None
  }

  function ValuesFile(cfg: Config): string {
    JoinPath(cfg.chartPath, "values.yaml")
  }

  /** The bytes written over values.yaml: the merged values, marshalled. */
  function MergedValuesYaml(cfg: Config, sdk: PackageSdk): Result<Bytes> {
    match MergeChartValues(ValuesFile(cfg), cfg.embedValues, cfg.getters, sdk.unmarshal, sdk.mergeValues)
    case Err(e) => Err(e)
    case Ok(vals) =>
      match sdk.marshal(vals)
      case Err(e) => Err(Wrapped("marshalling merged chart values", e))
      case Ok(b) => Ok(b)
  }

  /** The error PackageChart returns before it reaches client.Run, or None
      when it reaches it. */
  function EarlyError(cfg: Config, sdk: PackageSdk, files: map<string, Bytes>): Option<Error> {
    if SignCheck(cfg).Some? then SignCheck(cfg)
    else if sdk.absPath.Err? then Some(Wrapped("chart", sdk.absPath.error))
    else if sdk.statErr.Some? then Some(Wrapped("chart", sdk.statErr.value))
    else if cfg.embedValues == "" then None
    else if ValuesFile(cfg) !in files then Some(Wrapped("reading values.yaml", NotExist(ValuesFile(cfg))))
    else if MergedValuesYaml(cfg, sdk).Err? then Some(MergedValuesYaml(cfg, sdk).error)
    else if sdk.writeFault.Some? then Some(Wrapped("writing merged chart values", sdk.writeFault.value))
    else None
  }

  /** The files as client.Run sees them: values.yaml holds the merged values
      when inline values are embedded. */
  function RunFiles(cfg: Config, sdk: PackageSdk, files: map<string, Bytes>): map<string, Bytes>
    requires EarlyError(cfg, sdk, files).None?
  {
    if cfg.embedValues == "" then files
    else files[ValuesFile(cfg) := MergedValuesYaml(cfg, sdk).value]
  }

  /** The outcome of client.Run, once reached. */
  function RunOutcome(cfg: Config, sdk: PackageSdk, files: map<string, Bytes>): Result<string>
    requires EarlyError(cfg, sdk, files).None?
  {
    sdk.run(sdk.absPath.value, RunFiles(cfg, sdk, files))
  }

  /** Lines 47-68: back up values.yaml, merge, marshal and overwrite it.
      Returns the backup once the overwrite has happened. */
  method OverwriteValues(cfg: Config, sdk: PackageSdk, disk: Disk) returns (backup: Result<Bytes>)
    requires cfg.embedValues != ""
    modifies disk
    ensures var vf := ValuesFile(cfg);
      if vf !in old(disk.files) then
        backup == Err(Wrapped("reading values.yaml", NotExist(vf)))
        && disk.files == old(disk.files) && disk.log == old(disk.log) + [ReadOp(vf)]
      else if MergedValuesYaml(cfg, sdk).Err? then
        backup == Err(MergedValuesYaml(cfg, sdk).error)
        && disk.files == old(disk.files) && disk.log == old(disk.log) + [ReadOp(vf)]
      else
        var merged := MergedValuesYaml(cfg, sdk).value;
        disk.log == old(disk.log) + [ReadOp(vf), WriteOp(vf, merged)]
        && if sdk.writeFault.Some? then
             backup == Err(Wrapped("writing merged chart values", sdk.writeFault.value))
             && disk.files == old(disk.files)
           else
             backup == Ok(old(disk.files)[vf]) && disk.files == old(disk.files)[vf := merged]
  {
    var valuesFile := ValuesFile(cfg);
    var read := disk.ReadFile(valuesFile);
    if read.Err? {
      return Err(Wrapped("reading values.yaml", read.error));
    }
    var vals := MergeChartValues(valuesFile, cfg.embedValues, cfg.getters, sdk.unmarshal, sdk.mergeValues);
    if vals.Err? {
      return Err(vals.error);
    }
    var b := sdk.marshal(vals.value);
    if b.Err? {
      return Err(Wrapped("marshalling merged chart values", b.error));
    }
    var err := disk.WriteFile(valuesFile, b.value, sdk.writeFault);
    if err.Some? {
      return Err(Wrapped("writing merged chart values", err.value));
    }
    backup := Ok(read.value);
  }

  /** Lines 16-84 up to the deferred restore. `pending` holds the backup
      when values.yaml has been overwritten and must be restored. */
  method PackageUntilRestore(cfg: Config, sdk: PackageSdk, disk: Disk)
    returns (destDir: string, err: Option<Error>, pending: Option<Bytes>)
    modifies disk
    ensures EarlyError(cfg, sdk, old(disk.files)).Some? ==>
      destDir == "" && err == EarlyError(cfg, sdk, old(disk.files))
      && pending.None? && disk.files == old(disk.files)
    ensures EarlyError(cfg, sdk, old(disk.files)).None? ==>
      var run := RunOutcome(cfg, sdk, old(disk.files));
      && (run.Err? ==> destDir == "" && err == Some(run.error))
      && (run.Ok? ==> destDir == run.value && err.None?)
      && disk.files == RunFiles(cfg, sdk, old(disk.files))
      && pending == (if cfg.embedValues == "" then None else Some(old(disk.files)[ValuesFile(cfg)]))
      && (cfg.embedValues != "" ==>
            disk.log == old(disk.log) + [ReadOp(ValuesFile(cfg)), WriteOp(ValuesFile(cfg), MergedValuesYaml(cfg, sdk).value)])
    ensures cfg.embedValues == "" || SignCheck(cfg).Some? || sdk.absPath.Err? || sdk.statErr.Some? ==>
      disk.log == old(disk.log)
  {
    err := SignCheck(cfg);
    if err.Some? {
      return "", err, None;
    }
    if sdk.absPath.Err? {
      return "", Some(Wrapped("chart", sdk.absPath.error)), None;
    }
    var path := sdk.absPath.value;
    if sdk.statErr.Some? {
      return "", Some(Wrapped("chart", sdk.statErr.value)), None;
    }
    pending := None;
    if cfg.embedValues != "" {
      var backup := OverwriteValues(cfg, sdk, disk);
      if backup.Err? {
        return "", Some(backup.error), None;
      }
      pending := Some(backup.value);
    }
    var dest := sdk.run(path, disk.files);
    if dest.Err? {
      return "", Some(dest.error), pending;
    }
    destDir, err := dest.value, None;
  }

  /** PackageChart, with the deferred restore surfacing its error into the
      named result when nothing else failed, as the comment and the check
      `err == nil` in the deferred function intend. */
  method PackageChart(cfg: Config, sdk: PackageSdk, disk: Disk) returns (destDir: string, err: Option<Error>)
    modifies disk
    // signing needs a key, then a keyring; nothing is touched before
    ensures SignCheck(cfg).Some? ==>
      destDir == "" && err == SignCheck(cfg) && disk.files == old(disk.files) && disk.log == old(disk.log)
    // without inline values, values.yaml is neither read nor written
    ensures cfg.embedValues == "" ==> disk.files == old(disk.files) && disk.log == old(disk.log)
    // a failure before client.Run leaves every file as it was
    ensures EarlyError(cfg, sdk, old(disk.files)).Some? ==>
      destDir == "" && err == EarlyError(cfg, sdk, old(disk.files)) && disk.files == old(disk.files)
    // once the restore write succeeds, every file is as it was before the call
    ensures sdk.restoreFault.None? ==> disk.files == old(disk.files)
    ensures EarlyError(cfg, sdk, old(disk.files)).None? ==>
      var run := RunOutcome(cfg, sdk, old(disk.files));
      // a Run error takes precedence over a restore error
      && (run.Err? ==> destDir == "" && err == Some(run.error))
      // otherwise a restore error, if any, is returned beside the destination
      && (run.Ok? ==> destDir == run.value && err == (if cfg.embedValues == "" then None else sdk.restoreFault))
    // the overwrite, then the restore of the pre-call bytes
    ensures EarlyError(cfg, sdk, old(disk.files)).None? && cfg.embedValues != "" ==>
      var vf := ValuesFile(cfg);
      && disk.log == old(disk.log) + [ReadOp(vf), WriteOp(vf, MergedValuesYaml(cfg, sdk).value), WriteOp(vf, old(disk.files)[vf])]
      && disk.files == if sdk.restoreFault.None? then old(disk.files) else old(disk.files)[vf := MergedValuesYaml(cfg, sdk).value]
  {
    var pending;
    destDir, err, pending := PackageUntilRestore(cfg, sdk, disk);
    if pending.Some? {
      // deferred: restore values.yaml
      var e := disk.WriteFile(ValuesFile(cfg), pending.value, sdk.restoreFault);
      if e.Some? && err.None? {
        err := e;
      }
    }
  }

  /** PackageChart as written: the deferred function tests and assigns the
      `err` declared by `valuesBackup, err := os.ReadFile(...)` inside the
      `if` block, which shadows the named result, so a failed restore is
      never returned. */
  method PackageChartAsWritten(cfg: Config, sdk: PackageSdk, disk: Disk) returns (destDir: string, err: Option<Error>)
    modifies disk
    ensures SignCheck(cfg).Some? ==>
      destDir == "" && err == SignCheck(cfg) && disk.files == old(disk.files) && disk.log == old(disk.log)
    ensures cfg.embedValues == "" ==> disk.files == old(disk.files) && disk.log == old(disk.log)
    ensures EarlyError(cfg, sdk, old(disk.files)).Some? ==>
      destDir == "" && err == EarlyError(cfg, sdk, old(disk.files)) && disk.files == old(disk.files)
    ensures sdk.restoreFault.None? ==> disk.files == old(disk.files)
    ensures EarlyError(cfg, sdk, old(disk.files)).None? ==>
      var run := RunOutcome(cfg, sdk, old(disk.files));
      && (run.Err? ==> destDir == "" && err == Some(run.error))
      // the restore error is lost: success is reported with values.yaml still overwritten
      && (run.Ok? ==> destDir == run.value && err.None?)
    ensures EarlyError(cfg, sdk, old(disk.files)).None? && cfg.embedValues != "" ==>
      var vf := ValuesFile(cfg);
      && disk.log == old(disk.log) + [ReadOp(vf), WriteOp(vf, MergedValuesYaml(cfg, sdk).value), WriteOp(vf, old(disk.files)[vf])]
      && disk.files == if sdk.restoreFault.None? then old(disk.files) else old(disk.files)[vf := MergedValuesYaml(cfg, sdk).value]
  {
    var pending;
    destDir, err, pending := PackageUntilRestore(cfg, sdk, disk);
    if pending.Some? {
      // the inner `err` was last set by the successful overwrite
      var innerErr: Option<Error> := None;
      var e := disk.WriteFile(ValuesFile(cfg), pending.value, sdk.restoreFault);
      if e.Some? && innerErr.None? {
        innerErr := e;
      }
    }
  }

  /** A run in which only the restore write fails: as written, success is
      reported while values.yaml still holds the merged values; corrected,
      the restore error is returned. */
  method RestoreFailureScenario() returns (asWritten: Option<Error>, corrected: Option<Error>, left: Bytes)
    ensures asWritten.None?
    ensures corrected == Some(Message("no space left on device"))
    ensures left == [2]
  {
    var cfg := Config("chart", "1.0.0", "1.0.0", "replicas: 2", false, false, "", "", "", "out", [], "");
    var fault := Message("no space left on device");
    var sdk := PackageSdk(
      Ok("/work/chart"), None,
      (s: string) => Ok(Some(map["replicas" := Number(2)])),
      (req: MergeRequest) => Ok(map["replicas" := Number(2)]),
      (v: Values) => Ok([2]),
      None,
      (p: string, f: map<string, Bytes>) => Ok("out/chart-1.0.0.tgz"),
      Some(fault));
    assert ValuesFile(cfg) == "chart/values.yaml";
    var before := map["chart/values.yaml" := [1 as Byte]];
    assert EarlyError(cfg, sdk, before).None?;

    var disk := new Disk(before);
    var dest;
    dest, asWritten := PackageChartAsWritten(cfg, sdk, disk);
    left := disk.files["chart/values.yaml"];

    var disk2 := new Disk(before);
    dest, corrected := PackageChart(cfg, sdk, disk2);
  }
}

=== FILE: root.dfy ===
/** The command's own decisions (cmd/cbhelmpkg/root.go): the environment
    variables that stand in for flags, the version defaulting, the archive
    path reported to the pipeline, and the sequence of the run itself. The
    command-line framework, the chart loader and the dependency update are
    given as outcomes. */
module Cli {
  import opened Base
  import opened Sdk
  import opened OciGetter
  import opened Package

  const EnvVarPrefix: string := "CBHELMPKG_"

  // ---------------------------------------------------------------------
  // Environment variable names derived from flag names

  /** The characters the pattern `[^a-zA-Z0-6]+` does not match. The
      digits 7, 8 and 9 are outside the class, so they separate words. */
  predicate IsNameChar(c: char) {
    ('a' <= c <= 'z') || ('A' <= c <= 'Z') || ('0' <= c <= '6')
  }

  /** Drops the run of separators at the start of `s`. */
  function SkipSeparators(s: string): (r: string)
    ensures |r| <= |s| && r == s[|s| - |r|..]
    ensures r == [] || IsNameChar(r[0])
    // only separators are dropped
    ensures forall i :: 0 <= i < |s| - |r| ==> !IsNameChar(s[i])
  {
    if s == [] || IsNameChar(s[0]) then s else SkipSeparators(s[1..])
  }

  /** regexp.ReplaceAllString(s, "_") with the pattern `[^a-zA-Z0-6]+`:
      each maximal run of separators becomes one underscore. */
  function ReplaceSeparatorRuns(s: string): (r: string)
    // the replacement never lengthens the name, and empties only the empty name
    ensures |r| <= |s|
    ensures r == [] <==> s == []
    decreases |s|
  {
    if s == [] then []
    else if IsNameChar(s[0]) then [s[0]] + ReplaceSeparatorRuns(s[1..])
    else "_" + ReplaceSeparatorRuns(SkipSeparators(s[1..]))
  }

  function ToUpperChar(c: char): (u: char)
    ensures 'a' <= c <= 'z' ==> 'A' <= u <= 'Z' && u as int == c as int - 32
    ensures !('a' <= c <= 'z') ==> u == c
  {
    if 'a' <= c <= 'z' then (c as int - 32) as char else c
  }

  /** strings.ToUpper on the text it is applied to here, which holds only
      ASCII letters, the digits 0-6 and underscores. */
  function ToUpperAscii(s: string): (r: string)
    ensures |r| == |s|
    ensures forall i :: 0 <= i < |s| ==> r[i] == ToUpperChar(s[i])
  {
    if s == [] then [] else [ToUpperChar(s[0])] + ToUpperAscii(s[1..])
  }

  /** The environment variable bound to the flag called `flagName`. */
  function EnvVarName(prefix: string, flagName: string): (r: string)
    ensures HasPrefix(r, prefix)
    ensures prefix < r <==> flagName != []
    ensures |r| <= |prefix| + |flagName|
  {
    prefix + ToUpperAscii(ReplaceSeparatorRuns(flagName))
  }

  /** Every character of the replaced name is a name character or `_`. */
  lemma {:induction false} ReplacedCharset(s: string)
    ensures forall i :: 0 <= i < |ReplaceSeparatorRuns(s)| ==>
      IsNameChar(ReplaceSeparatorRuns(s)[i]) || ReplaceSeparatorRuns(s)[i] == '_'
    decreases |s|
  {
    if s == [] {
    } else if IsNameChar(s[0]) {
      ReplacedCharset(s[1..]);
    } else {
      ReplacedCharset(SkipSeparators(s[1..]));
    }
  }

  /** The replaced name starts with a name character unless the name does
      not start with one. */
  lemma ReplacedStart(s: string)
    requires s != [] && IsNameChar(s[0])
    ensures ReplaceSeparatorRuns(s) != [] && ReplaceSeparatorRuns(s)[0] == s[0]
  {
  }

  /** No two underscores next to each other. */
  predicate NoDoubleUnderscore(r: string) {
    forall i :: 0 <= i < |r| - 1 ==> !(r[i] == '_' && r[i + 1] == '_')
  }

  lemma NoDoubleUnderscoreCons(c: char, t: string)
    requires NoDoubleUnderscore(t)
    requires c != '_' || t == [] || t[0] != '_'
    ensures NoDoubleUnderscore([c] + t)
  {
    var r := [c] + t;
    forall i | 0 <= i < |r| - 1
      ensures !(r[i] == '_' && r[i + 1] == '_')
    {
      if i > 0 {
        assert r[i] == t[i - 1] && r[i + 1] == t[i];
      }
    }
  }

  /** No two underscores are adjacent: a run never yields more than one. */
  lemma {:induction false} NoAdjacentUnderscores(s: string)
    ensures NoDoubleUnderscore(ReplaceSeparatorRuns(s))
    decreases |s|
  {
    if s == [] {
    } else if IsNameChar(s[0]) {
      NoAdjacentUnderscores(s[1..]);
      NoDoubleUnderscoreCons(s[0], ReplaceSeparatorRuns(s[1..]));
    } else {
      var t := SkipSeparators(s[1..]);
      NoAdjacentUnderscores(t);
      if t != [] {
        ReplacedStart(t);
      }
      NoDoubleUnderscoreCons('_', ReplaceSeparatorRuns(t));
    }
  }

  /** A name made only of name characters is kept as it is. */
  lemma {:induction false} CleanNameKept(s: string)
    requires forall i :: 0 <= i < |s| ==> IsNameChar(s[i])
    ensures ReplaceSeparatorRuns(s) == s
    decreases |s|
  {
    if s != [] {
      CleanNameKept(s[1..]);
      assert s == [s[0]] + s[1..];
    }
  }

  // An independent description of the same replacement: turn every
  // separator into `_`, then squeeze repeated underscores into one.

  function SeparatorsToUnderscores(s: string): (r: string)
    ensures |r| == |s|
    ensures forall i :: 0 <= i < |s| ==> r[i] == if IsNameChar(s[i]) then s[i] else '_'
  {
    if s == [] then [] else [if IsNameChar(s[0]) then s[0] else '_'] + SeparatorsToUnderscores(s[1..])
  }

  function Squeeze(s: string): string {
    if |s| <= 1 then s
    else if s[0] == '_' && s[1] == '_' then Squeeze(s[1..])
    else [s[0]] + Squeeze(s[1..])
  }

  lemma SqueezeCons(c: char, s: string)
    requires c != '_'
    ensures Squeeze([c] + s) == [c] + Squeeze(s)
  {
    if s != [] {
      assert ([c] + s)[1..] == s;
    }
  }

  lemma SqueezeUnderscoreBeforeName(s: string)
    requires s == [] || s[0] != '_'
    ensures Squeeze("_" + s) == "_" + Squeeze(s)
  {
    if s != [] {
      assert ("_" + s)[1..] == s;
    }
  }

  /** An underscore absorbs the separators that follow it. */
  lemma {:induction false} SqueezeAbsorbsRun(u: string)
    ensures Squeeze("_" + SeparatorsToUnderscores(u)) == Squeeze("_" + SeparatorsToUnderscores(SkipSeparators(u)))
    decreases |u|
  {
    if u != [] && !IsNameChar(u[0]) {
      var m := SeparatorsToUnderscores(u[1..]);
      assert SeparatorsToUnderscores(u) == "_" + m;
      assert ("_" + ("_" + m))[1..] == "_" + m;
      SqueezeAbsorbsRun(u[1..]);
    }
  }

  /** The regex replacement equals the two-step description. */
  lemma {:induction false} ReplaceMatchesSqueeze(s: string)
    ensures ReplaceSeparatorRuns(s) == Squeeze(SeparatorsToUnderscores(s))
    decreases |s|
  {
    if s == [] {
    } else if IsNameChar(s[0]) {
      assert SeparatorsToUnderscores(s) == [s[0]] + SeparatorsToUnderscores(s[1..]);
      SqueezeCons(s[0], SeparatorsToUnderscores(s[1..]));
      ReplaceMatchesSqueeze(s[1..]);
    } else {
      var t := SkipSeparators(s[1..]);
      assert SeparatorsToUnderscores(s) == "_" + SeparatorsToUnderscores(s[1..]);
      SqueezeAbsorbsRun(s[1..]);
      SqueezeUnderscoreBeforeName(SeparatorsToUnderscores(t));
      ReplaceMatchesSqueeze(t);
    }
  }

  /** Every derived name starts with the prefix, and what follows it is
      made of upper-case ASCII letters, the digits 0-6 and underscores. */
  lemma EnvVarNameShape(prefix: string, flagName: string)
    ensures HasPrefix(EnvVarName(prefix, flagName), prefix)
    ensures var name := EnvVarName(prefix, flagName);
      forall i :: |prefix| <= i < |name| ==>
        ('A' <= name[i] <= 'Z') || ('0' <= name[i] <= '6') || name[i] == '_'
  {
    ReplacedCharset(flagName);
    var r := ReplaceSeparatorRuns(flagName);
    var name := EnvVarName(prefix, flagName);
    assert name[..|prefix|] == prefix;
    forall i | |prefix| <= i < |name|
      ensures ('A' <= name[i] <= 'Z') || ('0' <= name[i] <= '6') || name[i] == '_'
    {
      assert name[i] == ToUpperChar(r[i - |prefix|]);
    }
  }

  /** A flag named by two words joined with a dash, like `embed-values`,
      is bound to the upper-cased words joined with an underscore
      (CBHELMPKG_EMBED_VALUES). */
  lemma DashedFlagVariable(prefix: string, w1: string, w2: string)
    requires forall i :: 0 <= i < |w1| ==> IsNameChar(w1[i])
    requires w2 != [] && forall i :: 0 <= i < |w2| ==> IsNameChar(w2[i])
    ensures EnvVarName(prefix, w1 + "-" + w2) == prefix + ToUpperAscii(w1 + "_" + w2)
  {
    DashJoinedWords(w1, w2);
  }

  /** A separator in front of a clean word becomes an underscore. */
  lemma {:induction false} SeparatorBeforeWord(d: char, w: string)
    requires !IsNameChar(d)
    requires w != [] && forall i :: 0 <= i < |w| ==> IsNameChar(w[i])
    ensures ReplaceSeparatorRuns([d] + w) == "_" + w
  {
    var sep := [d] + w;
    assert sep[1..] == w;
    assert SkipSeparators(w) == w;
    CleanNameKept(w);
  }

  /** Two clean words joined by a dash are joined by an underscore. */
  lemma DashJoinedWords(w1: string, w2: string)
    requires forall i :: 0 <= i < |w1| ==> IsNameChar(w1[i])
    requires w2 != [] && forall i :: 0 <= i < |w2| ==> IsNameChar(w2[i])
    ensures ReplaceSeparatorRuns(w1 + "-" + w2) == w1 + "_" + w2
  {
    SeparatorJoinedWords(w1, '-', w2);
  }

  /** Concatenation of strings is associative. */
  lemma ConcatAssoc(a: string, b: string, c: string)
    ensures a + b + c == a + (b + c)
  {
  }

  /** Two clean words joined by one separator are joined by an underscore. */
  lemma {:induction false} SeparatorJoinedWords(w1: string, d: char, w2: string)
    requires !IsNameChar(d)
    requires forall i :: 0 <= i < |w1| ==> IsNameChar(w1[i])
    requires w2 != [] && forall i :: 0 <= i < |w2| ==> IsNameChar(w2[i])
    ensures ReplaceSeparatorRuns(w1 + [d] + w2) == w1 + "_" + w2
  {
    var t := [d] + w2;
    assert w1 + [d] + w2 == w1 + t by {
      ConcatAssoc(w1, [d], w2);
    }
    SeparatorBeforeWord(d, w2);
    ReplaceKeepsCleanPrefix(w1, t);
    ConcatAssoc(w1, "_", w2);
  }

  /** A clean word in front of the rest is kept in front. */
  lemma {:induction false} ReplaceKeepsCleanPrefix(w: string, rest: string)
    requires forall i :: 0 <= i < |w| ==> IsNameChar(w[i])
    ensures ReplaceSeparatorRuns(w + rest) == w + ReplaceSeparatorRuns(rest)
    decreases |w|
  {
    if w == [] {
      assert w + rest == rest;
    } else {
      var x, tail := w + rest, w[1..];
      assert x[0] == w[0] && x[1..] == tail + rest;
      assert IsNameChar(w[0]);
      assert forall i :: 0 <= i < |tail| ==> tail[i] == w[i + 1];
      ReplaceKeepsCleanPrefix(tail, rest);
      ConcatAssoc([w[0]], tail, ReplaceSeparatorRuns(rest));
      assert [w[0]] + tail == w;
    }
  }

  /** The digits 7 to 9 are separators: a flag named by a clean word and
      one such digit, like `key7`, is bound to the upper-cased word followed
      by an underscore (CBHELMPKG_KEY_). */
  lemma {:induction false} HighDigitsSeparate(prefix: string, w: string, d: char)
    requires forall i :: 0 <= i < |w| ==> IsNameChar(w[i])
    requires '7' <= d <= '9'
    ensures EnvVarName(prefix, w + [d]) == prefix + ToUpperAscii(w) + "_"
  {
    assert ReplaceSeparatorRuns([d]) == "_" by {
      assert [d][1..] == [];
    }
    ReplaceKeepsCleanPrefix(w, [d]);
    var r := ReplaceSeparatorRuns(w + [d]);
    assert r == w + "_";
    ToUpperAsciiAppend(w, "_");
    assert ToUpperAscii("_") == "_";
    assert ToUpperAscii(r) == ToUpperAscii(w) + "_";
    ConcatAssoc(prefix, ToUpperAscii(w), "_");
  }

  /** Upper-casing works character by character, so it distributes over
      concatenation. */
  lemma ToUpperAsciiAppend(a: string, b: string)
    ensures ToUpperAscii(a + b) == ToUpperAscii(a) + ToUpperAscii(b)
  {
    var l, r := ToUpperAscii(a + b), ToUpperAscii(a) + ToUpperAscii(b);
    forall i | 0 <= i < |l| ensures l[i] == r[i] {
      if i < |a| {
        assert (a + b)[i] == a[i];
      } else {
        assert (a + b)[i] == b[i - |a|];
      }
    }
  }

  // ---------------------------------------------------------------------
  // The process environment

  /** The text before the first `=` of an environment entry (the first
      part of strings.SplitN(entry, "=", 2)). */
  function EntryKey(entry: string): (k: string)
    ensures '=' !in k
    ensures HasPrefix(entry, k)
    ensures |k| < |entry| ==> entry[|k|] == '='
  {
    if entry == [] || entry[0] == '=' then [] else [entry[0]] + EntryKey(entry[1..])
  }

  /** For a key without `=`, an entry starts with `key=` exactly when its
      key is `key`. */
  lemma EntryKeyIs(entry: string, key: string)
    requires '=' !in key
    ensures HasPrefix(entry, key + "=") <==> |EntryKey(entry)| < |entry| && EntryKey(entry) == key
  {
    var k := EntryKey(entry);
    if HasPrefix(entry, key + "=") {
      assert entry[|key|] == '=';
      assert k == entry[..|k|] == key;
    }
  }

  /** os.Getenv over the entries os.Environ lists: the value of the first
      entry with that key, or "" when there is none. */
  function Getenv(environ: seq<string>, key: string): (v: string)
    ensures v != "" ==> exists i :: 0 <= i < |environ| && EntryKey(environ[i]) == key
  {
    if environ == [] then ""
    else
      var k := EntryKey(environ[0]);
      if |k| < |environ[0]| && k == key then environ[0][|k| + 1..]
      else Getenv(environ[1..], key)
  }

  /** A non-empty value is the text after `key=` in the first entry for
      that key; without an entry for the key the value is empty. */
  lemma {:induction false} GetenvFirstEntry(environ: seq<string>, key: string)
    ensures var v := Getenv(environ, key);
      v != "" ==>
        exists i :: 0 <= i < |environ| && environ[i] == key + "=" + v
                    && (forall j :: 0 <= j < i ==> !HasPrefix(environ[j], key + "="))
    ensures (forall i :: 0 <= i < |environ| ==> !HasPrefix(environ[i], key + "=")) ==> Getenv(environ, key) == ""
  {
    if environ != [] {
      var k := EntryKey(environ[0]);
      var v := Getenv(environ, key);
      if |k| < |environ[0]| && k == key {
        EntryKeyIs(environ[0], key);
        assert environ[0] == key + "=" + v;
      } else {
        GetenvFirstEntry(environ[1..], key);
        assert v == Getenv(environ[1..], key);
        if v != "" {
          var i :| 0 <= i < |environ[1..]| && environ[1..][i] == key + "=" + v
                   && (forall j :: 0 <= j < i ==> !HasPrefix(environ[1..][j], key + "="));
          EntryKeyIs(environ[0], key);
          assert environ[i + 1] == key + "=" + v;
          assert forall j :: 1 <= j < i + 1 ==> environ[j] == environ[1..][j - 1];
        }
        assert (forall i :: 0 <= i < |environ| ==> !HasPrefix(environ[i], key + "=")) ==>
          (forall i :: 0 <= i < |environ[1..]| ==> !HasPrefix(environ[1..][i], key + "=")) by {
          forall i | 0 <= i < |environ[1..]| ensures environ[1..][i] == environ[i + 1] { }
        }
      }
    }
  }

  // ---------------------------------------------------------------------
  // Binding environment variables to flags (applyEnvVarsToFlags)

  /** A command-line flag: its name, its help text and its shown default. */
  datatype Flag = Flag(name: string, usage: string, defValue: string)

  /** One call `f.Value.Set(value)` made for a non-empty variable. */
  datatype Assignment = Assignment(flag: string, envVar: string, value: string)

  function InvalidValue(envVar: string, cause: Error): Error {
    Wrapped("invalid environment variable " + envVar + " value provided", cause)
  }

  function Unsupported(envVar: string): Error {
    Message("unsupported environment variable provided: " + envVar)
  }

  /** The flag after the visit: its help text names the variable and a
      non-empty value becomes the shown default. */
  function Annotated(f: Flag, prefix: string, environ: seq<string>): Flag {
    var envVar := EnvVarName(prefix, f.name);
    var value := Getenv(environ, envVar);
    Flag(f.name, f.usage + " (" + envVar + ")", if value != "" then value else f.defValue)
  }

  /** `f` applied to each element of `s`, in order, built from the end. */
  function MapFromEnd<T, U>(s: seq<T>, f: T -> U): seq<U> {
    if s == [] then [] else MapFromEnd(s[..|s| - 1], f) + [f(s[|s| - 1])]
  }

  lemma {:induction false} MapFromEndAt<T, U>(s: seq<T>, f: T -> U)
    ensures |MapFromEnd(s, f)| == |s|
    ensures forall i :: 0 <= i < |s| ==> MapFromEnd(s, f)[i] == f(s[i])
    decreases |s|
  {
    if s != [] {
      var init := s[..|s| - 1];
      MapFromEndAt(init, f);
      forall i | 0 <= i < |s| ensures MapFromEnd(s, f)[i] == f(s[i]) {
        if i < |init| {
          assert init[i] == s[i];
        }
      }
    }
  }

  /** Every flag after the visit, in order. */
  function AnnotatedFlags(flags: seq<Flag>, prefix: string, environ: seq<string>): seq<Flag> {
    MapFromEnd(flags, f => Annotated(f, prefix, environ))
  }

  /** The visit annotates each flag in place and keeps their order. */
  lemma AnnotatedFlagsAt(flags: seq<Flag>, prefix: string, environ: seq<string>)
    ensures |AnnotatedFlags(flags, prefix, environ)| == |flags|
    ensures forall i :: 0 <= i < |flags| ==> AnnotatedFlags(flags, prefix, environ)[i] == Annotated(flags[i], prefix, environ)
  {
    MapFromEndAt(flags, f => Annotated(f, prefix, environ));
  }

  function SupportedEnvVars(flags: seq<Flag>, prefix: string): set<string> {
    set f | f in flags :: EnvVarName(prefix, f.name)
  }

  /** The Set calls the visit makes, in visiting order: one per flag whose
      variable is set to a non-empty value. */
  function EnvAssignments(flags: seq<Flag>, prefix: string, environ: seq<string>): seq<Assignment> {
    if flags == [] then []
    else
      var f := flags[|flags| - 1];
      var envVar := EnvVarName(prefix, f.name);
      var value := Getenv(environ, envVar);
      EnvAssignments(flags[..|flags| - 1], prefix, environ)
        + if value != "" then [Assignment(f.name, envVar, value)] else []
  }

  /** Only variables with a non-empty value are applied, each to the flag
      it was derived from and with the value the environment holds. */
  lemma {:induction false} EnvAssignmentsSound(flags: seq<Flag>, prefix: string, environ: seq<string>)
    ensures forall x :: x in EnvAssignments(flags, prefix, environ) ==>
      x.value != "" && x.value == Getenv(environ, x.envVar) && x.envVar == EnvVarName(prefix, x.flag)
      && exists f :: f in flags && f.name == x.flag
    decreases |flags|
  {
    if flags != [] {
      var init := flags[..|flags| - 1];
      EnvAssignmentsSound(init, prefix, environ);
      forall f | f in init ensures f in flags {
      }
      assert flags[|flags| - 1] in flags;
    }
  }

  /** Every flag whose variable holds a non-empty value is applied. */
  lemma {:induction false} EnvAssignmentsComplete(flags: seq<Flag>, prefix: string, environ: seq<string>, i: nat)
    requires i < |flags|
    requires Getenv(environ, EnvVarName(prefix, flags[i].name)) != ""
    ensures Assignment(flags[i].name, EnvVarName(prefix, flags[i].name), Getenv(environ, EnvVarName(prefix, flags[i].name)))
      in EnvAssignments(flags, prefix, environ)
    decreases |flags|
  {
    if i < |flags| - 1 {
      var init := flags[..|flags| - 1];
      assert init[i] == flags[i];
      EnvAssignmentsComplete(init, prefix, environ, i);
    }
  }

  /** The error the visit keeps: that of the first Set call that fails. */
  function FirstSetError(applied: seq<Assignment>, setValue: (string, string) -> Option<Error>): (r: Option<Error>)
    ensures r.None? <==> forall j :: 0 <= j < |applied| ==> setValue(applied[j].flag, applied[j].value).None?
  {
    if applied == [] then None
    else
      var x := applied[|applied| - 1];
      match FirstSetError(applied[..|applied| - 1], setValue)
      case Some(e) => Some(e)
      case None =>
        match setValue(x.flag, x.value)
        case Some(e) => Some(InvalidValue(x.envVar, e))
        case None => None
  }

  /** The kept error is the wrapped error of the first failing call: every
      call before position `k` succeeded. */
  lemma {:induction false} FirstSetErrorIsFirst(applied: seq<Assignment>, setValue: (string, string) -> Option<Error>, k: nat)
    requires k < |applied| && setValue(applied[k].flag, applied[k].value).Some?
    requires forall j :: 0 <= j < k ==> setValue(applied[j].flag, applied[j].value).None?
    ensures FirstSetError(applied, setValue) == Some(InvalidValue(applied[k].envVar, setValue(applied[k].flag, applied[k].value).value))
    decreases |applied|
  {
    var init := applied[..|applied| - 1];
    if k < |applied| - 1 {
      assert init[k] == applied[k];
      forall j | 0 <= j < k ensures setValue(init[j].flag, init[j].value).None? {
        assert init[j] == applied[j];
      }
      FirstSetErrorIsFirst(init, setValue, k);
    } else {
      forall j | 0 <= j < |init| ensures setValue(init[j].flag, init[j].value).None? {
        assert init[j] == applied[j];
      }
    }
  }

  /** Later failures never overwrite the first one. */
  lemma {:induction false} FirstSetErrorKept(a: seq<Assignment>, b: seq<Assignment>,
                                             setValue: (string, string) -> Option<Error>)
    requires FirstSetError(a, setValue).Some?
    ensures FirstSetError(a + b, setValue) == FirstSetError(a, setValue)
    decreases |b|
  {
    if b != [] {
      var b' := b[..|b| - 1];
      assert (a + b)[..|a + b| - 1] == a + b';
      FirstSetErrorKept(a, b', setValue);
    } else {
      assert a + b == a;
    }
  }

  /** The first environment entry with the prefix whose key is not a
      derived flag variable. */
  function FirstUnsupported(environ: seq<string>, prefix: string, supported: set<string>): (k: Option<nat>)
    ensures k.Some? ==> k.value < |environ| && HasPrefix(environ[k.value], prefix) && EntryKey(environ[k.value]) !in supported
    ensures k.Some? ==> forall j :: 0 <= j < k.value && HasPrefix(environ[j], prefix) ==> EntryKey(environ[j]) in supported
    ensures k.None? <==> forall j :: 0 <= j < |environ| && HasPrefix(environ[j], prefix) ==> EntryKey(environ[j]) in supported
  {
    if environ == [] then None
    else if HasPrefix(environ[0], prefix) && EntryKey(environ[0]) !in supported then Some(0)
    else match FirstUnsupported(environ[1..], prefix, supported)
      case None => None
      case Some(k) => Some(k + 1)
  }

  function UnsupportedError(environ: seq<string>, prefix: string, supported: set<string>): Option<Error> {
    match FirstUnsupported(environ, prefix, supported)
    case None => None
    case Some(k) => Some(Unsupported(EntryKey(environ[k])))
  }

  /** The visitor's work on one flag (lines 156-166): derive the
      variable, annotate the help text, and apply a non-empty value. */
  method VisitFlag(f: Flag, prefix: string, environ: seq<string>, setValue: (string, string) -> Option<Error>)
    returns (annotated: Flag, envVar: string, value: string, setErr: Option<Error>)
    ensures envVar == EnvVarName(prefix, f.name) && value == Getenv(environ, envVar)
    ensures annotated == Annotated(f, prefix, environ)
    ensures value != "" ==> annotated.defValue == value
    ensures setErr == if value != "" then setValue(f.name, value) else None
  {
    envVar := EnvVarName(prefix, f.name);
    var usage := f.usage + " (" + envVar + ")";
    var defValue := f.defValue;
    value := Getenv(environ, envVar);
    setErr := None;
    if value != "" {
      defValue := value;
      setErr := setValue(f.name, value);
    }
    annotated := Flag(f.name, usage, defValue);
  }

  /** The visit over every flag (lines 155-167). `flags` is in the order
      pflag's VisitAll walks them, which is sorted by flag name, so "first"
      in FirstSetError means first in that order. */
  method BindEnvToFlags(flags: seq<Flag>, prefix: string, environ: seq<string>,
                        setValue: (string, string) -> Option<Error>)
    returns (bound: seq<Flag>, supported: set<string>, applied: seq<Assignment>, err: Option<Error>)
    ensures bound == AnnotatedFlags(flags, prefix, environ)
    ensures supported == SupportedEnvVars(flags, prefix)
    ensures applied == EnvAssignments(flags, prefix, environ)
    ensures err == FirstSetError(applied, setValue)
  {
    bound, supported, applied, err := [], {}, [], None;
    var i := 0;
    while i < |flags|
      invariant 0 <= i <= |flags|
      invariant bound == AnnotatedFlags(flags[..i], prefix, environ)
      invariant supported == SupportedEnvVars(flags[..i], prefix)
      invariant applied == EnvAssignments(flags[..i], prefix, environ)
      invariant err == FirstSetError(applied, setValue)
    {
      var annotated, envVar, value, setErr := VisitFlag(flags[i], prefix, environ, setValue);
      EnvAssignmentsStep(flags, prefix, environ, i);
      SupportedEnvVarsStep(flags, prefix, i);
      supported := supported + {envVar};
      if value != "" {
        var x := Assignment(flags[i].name, envVar, value);
        FirstSetErrorAppend(applied, x, setValue);
        applied := applied + [x];
        if setErr.Some? && err.None? {
          err := Some(InvalidValue(envVar, setErr.value));
        }
      }
      bound := bound + [annotated];
      assert bound == AnnotatedFlags(flags[..i + 1], prefix, environ);
      assert supported == SupportedEnvVars(flags[..i + 1], prefix);
      assert applied == EnvAssignments(flags[..i + 1], prefix, environ);
      i := i + 1;
    }
    assert flags[..i] == flags;
  }

  lemma FirstSetErrorAppend(before: seq<Assignment>, x: Assignment, setValue: (string, string) -> Option<Error>)
    ensures FirstSetError(before + [x], setValue) ==
      if FirstSetError(before, setValue).Some? then FirstSetError(before, setValue)
      else if setValue(x.flag, x.value).Some? then Some(InvalidValue(x.envVar, setValue(x.flag, x.value).value))
      else None
  {
    assert (before + [x])[..|before|] == before;
  }

  lemma SupportedEnvVarsStep(flags: seq<Flag>, prefix: string, i: nat)
    requires i < |flags|
    ensures SupportedEnvVars(flags[..i + 1], prefix) == SupportedEnvVars(flags[..i], prefix) + {EnvVarName(prefix, flags[i].name)}
  {
    assert flags[..i + 1] == flags[..i] + [flags[i]];
  }

  lemma EnvAssignmentsStep(flags: seq<Flag>, prefix: string, environ: seq<string>, i: nat)
    requires i < |flags|
    ensures AnnotatedFlags(flags[..i + 1], prefix, environ) == AnnotatedFlags(flags[..i], prefix, environ) + [Annotated(flags[i], prefix, environ)]
    ensures var envVar := EnvVarName(prefix, flags[i].name);
      var value := Getenv(environ, envVar);
      EnvAssignments(flags[..i + 1], prefix, environ)
        == EnvAssignments(flags[..i], prefix, environ) + if value != "" then [Assignment(flags[i].name, envVar, value)] else []
  {
    assert flags[..i + 1][..i] == flags[..i];
    assert flags[..i + 1][i] == flags[i];
  }

  /** The scan of the environment (lines 172-180). */
  method CheckEnvironment(environ: seq<string>, prefix: string, supported: set<string>) returns (err: Option<Error>)
    ensures err.None? <==> forall j :: 0 <= j < |environ| && HasPrefix(environ[j], prefix) ==> EntryKey(environ[j]) in supported
    ensures err == UnsupportedError(environ, prefix, supported)
  {
    var i := 0;
    while i < |environ|
      invariant 0 <= i <= |environ|
      invariant forall j :: 0 <= j < i && HasPrefix(environ[j], prefix) ==> EntryKey(environ[j]) in supported
    {
      var entry := environ[i];
      if HasPrefix(entry, prefix) {
        var key := EntryKey(entry);
        if key !in supported {
          FirstUnsupportedIs(environ, prefix, supported, i);
          return Some(Unsupported(key));
        }
      }
      i := i + 1;
    }
    return None;
  }

  lemma FirstUnsupportedIs(environ: seq<string>, prefix: string, supported: set<string>, k: nat)
    requires k < |environ| && HasPrefix(environ[k], prefix) && EntryKey(environ[k]) !in supported
    requires forall j :: 0 <= j < k && HasPrefix(environ[j], prefix) ==> EntryKey(environ[j]) in supported
    ensures FirstUnsupported(environ, prefix, supported) == Some(k)
  {
  }

  /** applyEnvVarsToFlags: a failed Set stops the run before the
      environment is scanned; otherwise every prefixed variable must be one
      of the derived names. */
  method ApplyEnvVarsToFlags(flags: seq<Flag>, prefix: string, environ: seq<string>,
                             setValue: (string, string) -> Option<Error>)
    returns (bound: seq<Flag>, applied: seq<Assignment>, err: Option<Error>)
    ensures bound == AnnotatedFlags(flags, prefix, environ)
    ensures applied == EnvAssignments(flags, prefix, environ)
    ensures err == if FirstSetError(applied, setValue).Some? then FirstSetError(applied, setValue)
                   else UnsupportedError(environ, prefix, SupportedEnvVars(flags, prefix))
  {
    var supported;
    bound, supported, applied, err := BindEnvToFlags(flags, prefix, environ, setValue);
    if err.Some? {
      return;
    }
    err := CheckEnvironment(environ, prefix, supported);
  }

  /** Any prefixed entry that is not a flag's variable is refused, whatever
      else the environment holds. */
  lemma UnsupportedVariableRefused(flags: seq<Flag>, prefix: string, environ: seq<string>, i: nat)
    requires i < |environ| && HasPrefix(environ[i], prefix)
    requires forall f :: f in flags ==> EnvVarName(prefix, f.name) != EntryKey(environ[i])
    ensures UnsupportedError(environ, prefix, SupportedEnvVars(flags, prefix)).Some?
  {
    assert EntryKey(environ[i]) !in SupportedEnvVars(flags, prefix);
  }

  // ---------------------------------------------------------------------
  // Version defaulting

  /** The loaded chart's metadata (name, version and appVersion). */
  datatype Chart = Chart(name: string, version: string, appVersion: string)

  /** Lines 61-75: fill in the versions the user did not give. */
  method DefaultVersions(cfg: Config, chart: Chart) returns (r: Config)
    // nothing but the two versions changes
    ensures r == cfg.(version := r.version, appVersion := r.appVersion)
    // versions given explicitly are never overwritten
    ensures cfg.appVersion != "" ==> r.appVersion == cfg.appVersion
    ensures cfg.version != "" ==> r.version == cfg.version
    // a given version doubles as the appVersion
    ensures cfg.version != "" && cfg.appVersion == "" ==> r.appVersion == cfg.version
    // otherwise the chart's own values are used
    ensures cfg.version == "" ==> r.version == chart.version
    ensures cfg.version == "" && cfg.appVersion == "" ==>
      r.appVersion == if chart.appVersion == "" then chart.version else chart.appVersion
    // with a versioned chart, both end up set
    ensures chart.version != "" ==> r.version != "" && r.appVersion != ""
  {
    r := cfg;
    if r.appVersion == "" {
      if r.version == "" {
        if chart.appVersion == "" {
          r := r.(appVersion := chart.version);
        } else {
          r := r.(appVersion := chart.appVersion);
        }
      } else {
        r := r.(appVersion := r.version);
      }
    }
    if r.version == "" {
      r := r.(version := chart.version);
    }
  }

  // ---------------------------------------------------------------------
  // Pipeline environment and outputs

  const RequiredEnvMessage: string :=
    "env vars CLOUDBEES_OUTPUTS and RUNNER_TEMP must be specified - this binary is built to run within a CloudBees Action"

  /** Both CLOUDBEES_OUTPUTS and RUNNER_TEMP must be set. */
  function RequiredEnvCheck(outputsDir: string, runnerTemp: string): (r: Option<Error>)
    ensures r.None? <==> outputsDir != "" && runnerTemp != ""
    ensures r.Some? ==> r == Some(Message(RequiredEnvMessage))
  {
    if outputsDir == "" || runnerTemp == "" then Some(Message(RequiredEnvMessage)) else None
  }

  /** The archive the packager writes: `<name>-<version>.tgz` under the destination. */
  function ChartArchivePath(destDir: string, chartName: string, chartVersion: string): (r: string)
    ensures HasPrefix(r, destDir)
  {
    JoinPath(destDir, chartName + "-" + chartVersion + ".tgz")
  }

  /** The reported archive path names the destination's file `<name>-<version>.tgz`. */
  lemma ChartArchiveFileName(destDir: string, chartName: string, chartVersion: string)
    requires '/' !in chartName && '/' !in chartVersion
    ensures BaseName(ChartArchivePath(destDir, chartName, chartVersion)) == chartName + "-" + chartVersion + ".tgz"
    ensures HasPrefix(ChartArchivePath(destDir, chartName, chartVersion), destDir)
  {
    var file := chartName + "-" + chartVersion + ".tgz";
    assert '/' !in file by {
      assert forall i :: 0 <= i < |file| ==> file[i] != '/' by {
        forall i | 0 <= i < |file| ensures file[i] != '/' {
          if i < |chartName| {
            assert file[i] == chartName[i];
          } else if i == |chartName| {
          } else if i < |chartName| + 1 + |chartVersion| {
            assert file[i] == chartVersion[i - |chartName| - 1];
          }
        }
      }
    }
    JoinPathBaseName(destDir, file);
  }

  /** The output files writeActionOutputs writes, in order, each with the
      text it receives. */
  function ActionOutputs(outputDir: string, chartName: string, chartVersion: string, destDir: string): seq<(string, string)> {
    [ (JoinPath(outputDir, "name"), chartName),
      (JoinPath(outputDir, "version"), chartVersion),
      (JoinPath(outputDir, "directory"), destDir),
      (JoinPath(outputDir, "chart"), ChartArchivePath(destDir, chartName, chartVersion)) ]
  }

  /** The disk after a run of writes that stops at the first failure. */
  datatype Written = Written(files: map<string, Bytes>, log: seq<DiskOp>, err: Option<Error>)

  /** Writing `outputs[i..]` in order onto `files`, appending each write
      to `log`, where `fault` gives the outcome of the write to each path:
      a failed write is logged but changes nothing, and no later write is
      attempted. */
  function WriteOutputs(files: map<string, Bytes>, log: seq<DiskOp>, outputs: seq<(string, string)>, i: nat,
                        fault: string -> Option<Error>): (w: Written)
    requires i <= |outputs|
    ensures w.err.None? <==> forall k :: i <= k < |outputs| ==> fault(outputs[k].0).None?
    ensures |w.log| <= |log| + |outputs| - i
    decreases |outputs| - i
  {
    if i == |outputs| then Written(files, log, None)
    else
      var path, data := outputs[i].0, Utf8(outputs[i].1);
      var written := log + [WriteOp(path, data)];
      match fault(path)
      case Some(e) => Written(files, written, Some(e))
      case None => WriteOutputs(files[path := data], written, outputs, i + 1, fault)
  }

  /** When every write succeeds and no two outputs share a path, each
      output file holds exactly its text, nothing else changes, and every
      write is logged. */
  lemma {:induction false} AllOutputsWritten(files: map<string, Bytes>, log: seq<DiskOp>,
                                             outputs: seq<(string, string)>, i: nat,
                                             fault: string -> Option<Error>)
    requires i <= |outputs|
    requires forall k :: i <= k < |outputs| ==> fault(outputs[k].0).None?
    requires forall j, k :: i <= j < k < |outputs| ==> outputs[j].0 != outputs[k].0
    ensures var w := WriteOutputs(files, log, outputs, i, fault);
      && (forall k :: i <= k < |outputs| ==> outputs[k].0 in w.files && w.files[outputs[k].0] == Utf8(outputs[k].1))
      && (forall p :: p in files && (forall k :: i <= k < |outputs| ==> outputs[k].0 != p) ==> p in w.files && w.files[p] == files[p])
      && |w.log| == |log| + |outputs| - i
      && w.log[..|log|] == log
      && (forall j :: |log| <= j < |w.log| ==>
            w.log[j] == WriteOp(outputs[i + j - |log|].0, Utf8(outputs[i + j - |log|].1)))
    decreases |outputs| - i
  {
    AllWritesLogged(files, log, outputs, i, fault);
    if i < |outputs| {
      AllOutputsWritten(files[outputs[i].0 := Utf8(outputs[i].1)], log + [WriteOp(outputs[i].0, Utf8(outputs[i].1))],
                        outputs, i + 1, fault);
    }
  }

  /** When every write succeeds, the old log is kept and one write per
      output follows it, in order. */
  lemma {:induction false} AllWritesLogged(files: map<string, Bytes>, log: seq<DiskOp>,
                                           outputs: seq<(string, string)>, i: nat,
                                           fault: string -> Option<Error>)
    requires i <= |outputs|
    requires forall k :: i <= k < |outputs| ==> fault(outputs[k].0).None?
    ensures var w := WriteOutputs(files, log, outputs, i, fault);
      && |w.log| == |log| + |outputs| - i
      && w.log[..|log|] == log
      && (forall j :: |log| <= j < |w.log| ==>
            w.log[j] == WriteOp(outputs[i + j - |log|].0, Utf8(outputs[i + j - |log|].1)))
    decreases |outputs| - i
  {
    if i < |outputs| {
      var written := log + [WriteOp(outputs[i].0, Utf8(outputs[i].1))];
      AllWritesLogged(files[outputs[i].0 := Utf8(outputs[i].1)], written, outputs, i + 1, fault);
      var w := WriteOutputs(files[outputs[i].0 := Utf8(outputs[i].1)], written, outputs, i + 1, fault);
      assert w.log[..|log|] == written[..|log|];
      assert w.log[|log|] == written[|log|] by {
        assert w.log[..|written|][|log|] == written[|log|];
      }
    }
  }

  /** When the write to `outputs[m]` is the first to fail, its fault is
      the error, and no file changes except those written before it. */
  lemma {:induction false} FirstFailedWriteStops(files: map<string, Bytes>, log: seq<DiskOp>,
                                                 outputs: seq<(string, string)>, i: nat, m: nat,
                                                 fault: string -> Option<Error>)
    requires i <= m < |outputs|
    requires forall k :: i <= k < m ==> fault(outputs[k].0).None?
    requires fault(outputs[m].0).Some?
    ensures var w := WriteOutputs(files, log, outputs, i, fault);
      && w.err == fault(outputs[m].0)
      && (forall p :: (forall k :: i <= k < m ==> outputs[k].0 != p) ==>
            (p in w.files <==> p in files) && (p in files ==> w.files[p] == files[p]))
    decreases m - i
  {
    if i < m {
      FirstFailedWriteStops(files[outputs[i].0 := Utf8(outputs[i].1)], log + [WriteOp(outputs[i].0, Utf8(outputs[i].1))],
                            outputs, i + 1, m, fault);
    }
  }

  /** When the write to `outputs[m]` is the first to fail, the log gains
      the writes of `outputs[i..m+1]`, in order, the failed one last. */
  lemma {:induction false} FirstFailedWriteLogged(files: map<string, Bytes>, log: seq<DiskOp>,
                                                  outputs: seq<(string, string)>, i: nat, m: nat,
                                                  fault: string -> Option<Error>)
    requires i <= m < |outputs|
    requires forall k :: i <= k < m ==> fault(outputs[k].0).None?
    requires fault(outputs[m].0).Some?
    ensures var w := WriteOutputs(files, log, outputs, i, fault);
      && |w.log| == |log| + m + 1 - i
      && w.log[..|log|] == log
      && (forall j :: |log| <= j < |w.log| ==>
            w.log[j] == WriteOp(outputs[i + j - |log|].0, Utf8(outputs[i + j - |log|].1)))
    decreases m - i
  {
    var written := log + [WriteOp(outputs[i].0, Utf8(outputs[i].1))];
    if i < m {
      FirstFailedWriteLogged(files[outputs[i].0 := Utf8(outputs[i].1)], written, outputs, i + 1, m, fault);
      var w := WriteOutputs(files[outputs[i].0 := Utf8(outputs[i].1)], written, outputs, i + 1, fault);
      assert w.log[..|log|] == written[..|log|];
      assert w.log[|log|] == written[|log|] by {
        assert w.log[..|written|][|log|] == written[|log|];
      }
    }
  }

  /** The four output files have four different paths. */
  lemma ActionOutputPathsDistinct(outputDir: string, chartName: string, chartVersion: string, destDir: string)
    ensures var outputs := ActionOutputs(outputDir, chartName, chartVersion, destDir);
      forall j, k :: 0 <= j < k < |outputs| ==> outputs[j].0 != outputs[k].0
  {
    var names := ["name", "version", "directory", "chart"];
    assert forall j, k :: 0 <= j < k < 4 ==> |names[j]| != |names[k]|;
    forall j, k | 0 <= j < k < 4
      ensures JoinPath(outputDir, names[j]) != JoinPath(outputDir, names[k])
    {
      if JoinPath(outputDir, names[j]) == JoinPath(outputDir, names[k]) {
        JoinPathInjective(outputDir, names[j], names[k]);
      }
    }
    var outputs := ActionOutputs(outputDir, chartName, chartVersion, destDir);
    assert forall k :: 0 <= k < 4 ==> outputs[k].0 == JoinPath(outputDir, names[k]);
  }

  /** writeActionOutputs (lines 127-151): four writes, stopping at the
      first that fails. */
  method WriteActionOutputs(outputDir: string, chartName: string, chartVersion: string, destDir: string,
                            fault: string -> Option<Error>, disk: Disk)
    returns (err: Option<Error>)
    modifies disk
    ensures var w := WriteOutputs(old(disk.files), old(disk.log), ActionOutputs(outputDir, chartName, chartVersion, destDir), 0, fault);
      disk.files == w.files && disk.log == w.log && err == w.err
    // once every write succeeds, each output file holds its text
    ensures err.None? ==>
      var outputs := ActionOutputs(outputDir, chartName, chartVersion, destDir);
      forall k :: 0 <= k < |outputs| ==> outputs[k].0 in disk.files && disk.files[outputs[k].0] == Utf8(outputs[k].1)
    ensures err.None? ==>
      JoinPath(outputDir, "chart") in disk.files
      && disk.files[JoinPath(outputDir, "chart")] == Utf8(ChartArchivePath(destDir, chartName, chartVersion))
  {
    ghost var outputs := ActionOutputs(outputDir, chartName, chartVersion, destDir);
    ghost var files0, log0 := disk.files, disk.log;
    ghost var w := WriteOutputs(files0, log0, outputs, 0, fault);
    err := disk.WriteFile(JoinPath(outputDir, "name"), Utf8(chartName), fault(JoinPath(outputDir, "name")));
    if err.Some? {
      return;
    }
    assert w == WriteOutputs(disk.files, disk.log, outputs, 1, fault);
    err := disk.WriteFile(JoinPath(outputDir, "version"), Utf8(chartVersion), fault(JoinPath(outputDir, "version")));
    if err.Some? {
      return;
    }
    assert w == WriteOutputs(disk.files, disk.log, outputs, 2, fault);
    err := disk.WriteFile(JoinPath(outputDir, "directory"), Utf8(destDir), fault(JoinPath(outputDir, "directory")));
    if err.Some? {
      return;
    }
    assert w == WriteOutputs(disk.files, disk.log, outputs, 3, fault);
    var fileName := chartName + "-" + chartVersion + ".tgz";
    var filePath := JoinPath(destDir, fileName);
    err := disk.WriteFile(JoinPath(outputDir, "chart"), Utf8(filePath), fault(JoinPath(outputDir, "chart")));
    if err.None? {
      ActionOutputPathsDistinct(outputDir, chartName, chartVersion, destDir);
      AllOutputsWritten(files0, log0, outputs, 0, fault);
      assert outputs[3].0 == JoinPath(outputDir, "chart");
    }
  }

  // ---------------------------------------------------------------------
  // The run (the command's RunE)

  /** The outcomes of the calls the run makes into the SDK and the
      operating system, whose behaviour is not modelled. */
  datatype RunSdk = RunSdk(
    completeErr: Option<Error>,            // building the registry client in Config.Complete
    stockProviders: seq<Provider>,         // getter.All(settings)
    mkdirTemp: Result<string>,             // os.MkdirTemp(RUNNER_TEMP, "chart-")
    load: string -> Result<Chart>,         // loader.Load
    updateErr: Option<Error>,              // helm.UpdateDependencies
    outputFault: string -> Option<Error>)  // the outcome of each output file write

  /** The version the run reports: the given one, else the chart's. */
  function ReportedVersion(cfg: Config, chart: Chart): string {
    if cfg.version != "" then cfg.version else chart.version
  }

  /** Config.Complete (internal/helm/config.go, lines 40-50): a failure to
      build the registry client is returned wrapped; otherwise the getters
      are the stock providers with the OCI one replaced by the mirroring
      getter. The stock list is copied into an array that the replacement
      updates in place. */
  method Complete(cfg: Config, clientErr: Option<Error>, stockProviders: seq<Provider>)
    returns (completed: Config, err: Option<Error>)
    ensures clientErr.Some? ==> err == Some(Wrapped("new registry client", clientErr.value)) && completed == cfg
    ensures clientErr.None? ==>
      err.None? && completed == cfg.(getters := WithOciReplaced(stockProviders, cfg.registryConfig))
  {
    if clientErr.Some? {
      return cfg, Some(Wrapped("new registry client", clientErr.value));
    }
    var providers := new Provider[|stockProviders|](i requires 0 <= i < |stockProviders| => stockProviders[i]);
    assert providers[..] == stockProviders;
    ReplaceOciGetter(providers, cfg.registryConfig);
    completed, err := cfg.(getters := providers[..]), None;
  }

  /** The packaging step of the run, as written or corrected. The two
      differ only in the restore's error; a failure before client.Run is
      reported the same way by both, with every file left as it was. */
  method PackageStep(cfg: Config, ps: PackageSdk, asWritten: bool, disk: Disk)
    returns (destDir: string, err: Option<Error>)
    modifies disk
    ensures EarlyError(cfg, ps, old(disk.files)).Some? ==>
      destDir == "" && err == EarlyError(cfg, ps, old(disk.files)) && disk.files == old(disk.files)
  {
    if asWritten {
      destDir, err := PackageChartAsWritten(cfg, ps, disk);
    } else {
      destDir, err := PackageChart(cfg, ps, disk);
    }
  }

  /** The command's RunE (lines 29-95). `asWritten` picks the packaging
      step: the code as written, whose deferred restore cannot fail the
      run, or the corrected one, which reports a failed restore. */
  method RunAction(cfg0: Config, chartArg: string, outputsDir: string, runnerTemp: string,
                   rs: RunSdk, ps: PackageSdk, asWritten: bool, disk: Disk)
    returns (err: Option<Error>)
    modifies disk
    ensures rs.completeErr.Some? ==>
      err == Some(Wrapped("new registry client", rs.completeErr.value))
      && disk.files == old(disk.files) && disk.log == old(disk.log)
    // without the pipeline's directories the run fails before touching the disk
    ensures rs.completeErr.None? && RequiredEnvCheck(outputsDir, runnerTemp).Some? ==>
      err == RequiredEnvCheck(outputsDir, runnerTemp)
      && disk.files == old(disk.files) && disk.log == old(disk.log)
    // a successful run leaves each output file holding its text, and the
    // chart output names the archive under the defaulted version
    ensures err.None? ==>
      rs.load(chartArg).Ok? && (cfg0.destination == "" ==> rs.mkdirTemp.Ok?) &&
      var chart := rs.load(chartArg).value;
      var dest := if cfg0.destination == "" then rs.mkdirTemp.value else cfg0.destination;
      var outputs := ActionOutputs(outputsDir, chart.name, ReportedVersion(cfg0, chart), dest);
      && (forall k :: 0 <= k < |outputs| ==> outputs[k].0 in disk.files && disk.files[outputs[k].0] == Utf8(outputs[k].1))
      && JoinPath(outputsDir, "chart") in disk.files
      && disk.files[JoinPath(outputsDir, "chart")] == Utf8(ChartArchivePath(dest, chart.name, ReportedVersion(cfg0, chart)))
  {
    var cfg;
    cfg, err := Complete(cfg0, rs.completeErr, rs.stockProviders);
    if err.Some? {
      return;
    }

    err := RequiredEnvCheck(outputsDir, runnerTemp);
    if err.Some? {
      return;
    }
    if cfg.destination == "" {
      if rs.mkdirTemp.Err? {
        return Some(Wrapped("create temp chart destination dir", rs.mkdirTemp.error));
      }
      cfg := cfg.(destination := rs.mkdirTemp.value);
    }
    cfg := cfg.(chartPath := chartArg);

    var loaded := rs.load(cfg.chartPath);
    if loaded.Err? {
      return Some(Wrapped("load chart", loaded.error));
    }
    var chart := loaded.value;
    cfg := DefaultVersions(cfg, chart);

    if rs.updateErr.Some? {
      return Some(Wrapped("build chart dependencies", rs.updateErr.value));
    }
    var dest, packageErr := PackageStep(cfg, ps, asWritten, disk);
    if packageErr.Some? {
      return Some(Wrapped("helm package", packageErr.value));
    }

    var writeErr := WriteActionOutputs(outputsDir, chart.name, cfg.version, cfg.destination, rs.outputFault, disk);
    if writeErr.Some? {
      return Some(Wrapped("write action output", writeErr.value));
    }
  }
}

=== FILE: sdk.dfy ===
/** The parts of the chart-packaging SDK and of the operating system that
    the action's own code touches: decoded YAML values, getter providers,
    the SDK's scheme lookup, and a file system with a log of operations. */
module Sdk {
  import opened Base

  /** A decoded YAML value, as Go holds it in an `interface{}`. */
  datatype Node =
    | Null
    | Bool(b: bool)
    | Number(n: int)
    | Text(s: string)
    | List(items: seq<Node>)
    | Mapping(entries: map<string, Node>)

  /** A decoded YAML document (Go's `map[string]interface{}`). */
  type Values = map<string, Node>

  /** What a provider's `New` builds. The stock SDK getters (http, https,
      oci, plugins) are opaque; the action adds two of its own. */
  datatype Constructor =
    | Stock(name: string)
    | MirroringOci(registryConfigFile: string)
    | EmbeddedValues(values: Option<Values>)

  /** getter.Provider: the URL schemes it handles and what builds its getter (the SDK field `New`). */
  datatype Provider = Provider(schemes: seq<string>, build: Constructor)

  /** The position of the first provider that lists `scheme`, which is the
      one the SDK's Providers.ByScheme lookup hands out. */
  function FirstWithScheme(providers: seq<Provider>, scheme: string): (k: Option<nat>)
    ensures k.Some? ==> k.value < |providers| && scheme in providers[k.value].schemes
    ensures k.Some? ==> forall j :: 0 <= j < k.value ==> scheme !in providers[j].schemes
    ensures k.None? ==> forall j :: 0 <= j < |providers| ==> scheme !in providers[j].schemes
  {
    if providers == [] then None
    else if scheme in providers[0].schemes then Some(0)
    else match FirstWithScheme(providers[1..], scheme)
      case None => None
      case Some(k) => Some(k + 1)
  }

  /** Any position satisfying the "first provider listing the scheme"
      description is the one FirstWithScheme finds. */
  lemma FirstWithSchemeUnique(providers: seq<Provider>, scheme: string, k: nat)
    requires k < |providers| && scheme in providers[k].schemes
    requires forall j :: 0 <= j < k ==> scheme !in providers[j].schemes
    ensures FirstWithScheme(providers, scheme) == Some(k)
  {
  }

  /** A file-system operation, as recorded in the disk's log. */
  datatype DiskOp = ReadOp(path: string) | WriteOp(path: string, data: Bytes)

  /** The file system as a map from paths to contents, and the log of every
      read and write made through it, in order. */
  class Disk {
    var files: map<string, Bytes>
    var log: seq<DiskOp>

    constructor (files: map<string, Bytes>)
      ensures this.files == files && log == []
    {
      this.files := files;
      log := [];
    }

    /** os.ReadFile: the file's bytes, or the "does not exist" error. */
    method ReadFile(path: string) returns (r: Result<Bytes>)
      modifies this`log
      ensures log == old(log) + [ReadOp(path)]
      ensures path in files ==> r == Ok(files[path])
      ensures path !in files ==> r == Err(NotExist(path))
    {
      log := log + [ReadOp(path)];
      if path in files {
        r := Ok(files[path]);
      } else {
        r := Err(NotExist(path));
      }
    }

    /** os.WriteFile with the outcome the operating system gives it: the
        write takes effect exactly when there is no fault. */
    method WriteFile(path: string, data: Bytes, fault: Option<Error>) returns (err: Option<Error>)
      modifies this
      ensures log == old(log) + [WriteOp(path, data)]
      ensures err == fault
      ensures files == if fault.None? then old(files)[path := data] else old(files)
    {
      log := log + [WriteOp(path, data)];
      err := fault;
      if fault.None? {
        files := files[path := data];
      }
    }
  }

  /** The error os.ReadFile reports for a missing file. */
  function NotExist(path: string): Error {
    Message("open " + path + ": no such file or directory")
  }
}

=== FILE: values.dfy ===
/** Inline chart values supplied as an action input (internal/helm/values.go):
    a getter that serves them under the URL `actioninput:values`, and the
    merge request that lists the chart's values file first and the inline
    values second. YAML encoding and decoding and the SDK's merge are given
    as functions whose behaviour is not modelled. */
module InlineValues {
  import opened Base
  import opened Sdk

  const InputValuesUrlScheme: string := "actioninput"
  const InputValuesUrl: string := InputValuesUrlScheme + ":values"

  /** The URL is the scheme followed by ":values", so the SDK dispatches it
      to the provider registered for that scheme. */
  lemma InputValuesUrlShape()
    ensures InputValuesUrl == "actioninput:values"
    ensures HasPrefix(InputValuesUrl, InputValuesUrlScheme + ":")
  {
  }

  /** What a getter's Get hands back: Go returns a buffer and an error side
      by side, and this getter sometimes fills both. */
  datatype Response = Response(body: Option<Bytes>, err: Option<Error>)

  function UnsupportedUrl(url: string): Error {
    Message("unsupported URL \"" + url + "\" provided to actioninput values getter")
  }

  /** embeddedValuesGetter.Get. `values` is None for a nil map; `marshal`
      is yaml.Marshal. bytes.Buffer.Write never fails, so its error branch
      is left out. */
  function EmbeddedGet(values: Option<Values>, url: string, marshal: Values -> Result<Bytes>): (r: Response)
    // every URL but the inline one is refused, with an empty buffer
    ensures url != InputValuesUrl ==> r == Response(Some([]), Some(UnsupportedUrl(url)))
    // a nil map serves an empty document
    ensures url == InputValuesUrl && values.None? ==> r == Response(Some([]), None)
    // otherwise the served document is the marshalled map
    ensures url == InputValuesUrl && values.Some? && marshal(values.value).Ok? ==>
      r == Response(Some(marshal(values.value).value), None)
    ensures url == InputValuesUrl && values.Some? && marshal(values.value).Err? ==>
      r == Response(Some([]), Some(Wrapped("marshal inline helm values", marshal(values.value).error)))
  {
    if url == InputValuesUrl then
      if values.Some? then
        match marshal(values.value)
        case Err(e) => Response(Some([]), Some(Wrapped("marshal inline helm values", e)))
        case Ok(b) => Response(Some(b), None)
      else Response(Some([]), None)
    else Response(Some([]), Some(UnsupportedUrl(url)))
  }

  /** The getter answers without error exactly for its own URL, when the
      values are nil or can be marshalled. */
  lemma EmbeddedGetSucceedsIff(values: Option<Values>, url: string, marshal: Values -> Result<Bytes>)
    ensures EmbeddedGet(values, url, marshal).err.None? <==>
      url == InputValuesUrl && (values.None? || marshal(values.value).Ok?)
  {
  }

  /** The arguments of values.Options.MergeValues: the value files in the
      order they are applied, and the providers that fetch URL sources. */
  datatype MergeRequest = MergeRequest(valueFiles: seq<string>, providers: seq<Provider>)

  /** The provider mergeChartValues appends for the inline values. */
  function InlineProvider(custom: Option<Values>): Provider {
    Provider([InputValuesUrlScheme], EmbeddedValues(custom))
  }

  /** The merge request mergeChartValues builds from decoded inline values. */
  function BuildMergeRequest(valuesFile: string, custom: Option<Values>, getters: seq<Provider>): (req: MergeRequest)
    // the values file comes first and the inline values last, so they take precedence
    ensures req.valueFiles == [valuesFile, InputValuesUrl]
    // the original getters, then exactly one extra provider, for `actioninput` only
    ensures |req.providers| == |getters| + 1 && req.providers[..|getters|] == getters
    ensures req.providers[|getters|].schemes == [InputValuesUrlScheme]
    ensures req.providers[|getters|].build == EmbeddedValues(custom)
  {
    MergeRequest([valuesFile, InputValuesUrl], getters + [InlineProvider(custom)])
  }

  /** mergeChartValues. `unmarshal` is yaml.Unmarshal into a map (None for
      a document that leaves the map nil); `mergeValues` is the SDK's merge. */
  function MergeChartValues(valuesFile: string, customValuesYaml: string, getters: seq<Provider>,
                            unmarshal: string -> Result<Option<Values>>,
                            mergeValues: MergeRequest -> Result<Values>): (r: Result<Values>)
    ensures unmarshal(customValuesYaml).Err? ==>
      r == Err(Wrapped("unmarshal values from action input", unmarshal(customValuesYaml).error))
    ensures unmarshal(customValuesYaml).Ok? ==>
      var req := BuildMergeRequest(valuesFile, unmarshal(customValuesYaml).value, getters);
      r == match mergeValues(req)
           case Ok(vals) => Ok(vals)
           case Err(e) => Err(Wrapped("load values", e))
  {
    match unmarshal(customValuesYaml)
    case Err(e) => Err(Wrapped("unmarshal values from action input", e))
    case Ok(custom) =>
      match mergeValues(BuildMergeRequest(valuesFile, custom, getters))
      case Err(e) => Err(Wrapped("load values", e))
      case Ok(vals) => Ok(vals)
  }

  /** Unparseable inline YAML is reported before any merge is attempted:
      the outcome does not depend on the merge at all. */
  lemma UnparseableInlineSkipsMerge(valuesFile: string, customValuesYaml: string, getters: seq<Provider>,
                                    unmarshal: string -> Result<Option<Values>>,
                                    merge1: MergeRequest -> Result<Values>, merge2: MergeRequest -> Result<Values>)
    requires unmarshal(customValuesYaml).Err?
    ensures MergeChartValues(valuesFile, customValuesYaml, getters, unmarshal, merge1)
         == MergeChartValues(valuesFile, customValuesYaml, getters, unmarshal, merge2)
    ensures MergeChartValues(valuesFile, customValuesYaml, getters, unmarshal, merge1).Err?
  {
  }

  /** The second value file is served by the appended provider, provided
      none of the original getters claims the `actioninput` scheme; that
      provider's getter answers it with the marshalled inline values. */
  lemma InlineSourceServedByInlineProvider(valuesFile: string, custom: Option<Values>, getters: seq<Provider>,
                                           marshal: Values -> Result<Bytes>)
    requires forall i :: 0 <= i < |getters| ==> InputValuesUrlScheme !in getters[i].schemes
    requires custom.Some? ==> marshal(custom.value).Ok?
    ensures var req := BuildMergeRequest(valuesFile, custom, getters);
      && FirstWithScheme(req.providers, InputValuesUrlScheme) == Some(|getters|)
      && req.providers[|getters|].build == EmbeddedValues(custom)
      && EmbeddedGet(custom, req.valueFiles[1], marshal).err.None?
      && EmbeddedGet(custom, req.valueFiles[1], marshal).body
         == Some(if custom.None? then [] else marshal(custom.value).value)
  {
    var req := BuildMergeRequest(valuesFile, custom, getters);
    FirstWithSchemeUnique(req.providers, InputValuesUrlScheme, |getters|);
  }

  /** If one of the original getters already claims `actioninput`, it
      shadows the inline provider. */
  lemma EarlierClaimShadowsInlineProvider(valuesFile: string, custom: Option<Values>, getters: seq<Provider>)
    requires exists i :: 0 <= i < |getters| && InputValuesUrlScheme in getters[i].schemes
    ensures var req := BuildMergeRequest(valuesFile, custom, getters);
      FirstWithScheme(req.providers, InputValuesUrlScheme) == FirstWithScheme(getters, InputValuesUrlScheme)
  {
    var req := BuildMergeRequest(valuesFile, custom, getters);
    var k := FirstWithScheme(getters, InputValuesUrlScheme).value;
    FirstWithSchemeUnique(req.providers, InputValuesUrlScheme, k);
  }
}
